=== FILE: README.md ===
# skm key store, modelled in Dafny

`skm` keeps several SSH key pairs side by side. Each pair lives in its own alias
directory under `~/.skm`. The pair that is "in use" is the one that the two symlinks
`~/.ssh/id_rsa` and `~/.ssh/id_rsa.pub` point at. This project models the key-store
logic of `utils.go` over an abstract filesystem and proves properties of it:

- **Path resolution.** `parsePath` reads `~/.ssh/id_rsa` with `Lstat` and `Readlink`.
- **Discovery.**
  - `loadSingleKey` walks one alias directory and classifies its files.
  - `loadSSHKeys` walks the store and maps each alias name to its key.
- **Activation.** `clearKey` empties the two slots. `createLink` then points them at an alias.
- **Deletion.** `deleteKey` asks for confirmation. It clears the slots when the key is in use, then removes the alias directory.
- **Backup naming.** `getBakFileName` builds `skm-YYYYMMDDHHMMSS.tar.gz`.

The filesystem is a finite map from paths to entries. A path is a list of components,
and an entry is `File`, `Dir` or `Symlink(target)`. The model covers the `os` calls
the core makes, with their Linux outcomes (`files.dfy`):

- `os.Stat` follows links, up to the kernel's 40 hops; a longer chain is ELOOP, which is not "not exist".
- `os.Remove` refuses a non-empty directory.
- `os.RemoveAll` removes a whole subtree.
- `os.Symlink` refuses an occupied slot or a missing parent directory.

`filepath.Walk` reads each directory's names in sorted order and visits a directory
before its contents. A walk is therefore the root followed by every entry below it,
sorted component by component (`walk.dfy`). Each walk callback is a fold over that
sequence. Each fold is proved equal to a description that mentions the order only as
"the entry visited last".

Three behaviours of the code shape the model:

- **Nested directories are walked.** The callbacks return `nil` for directories, never `SkipDir` (utils.go:122-124, 186-195), so both walks recurse.
  - `loadSingleKey` also classifies files in sub-directories of an alias.
  - `loadSSHKeys` takes every directory below the store as a candidate alias, under its base name. The one visited last wins a shared name.
  - "At most one key is the default" is therefore proved only for a flat store (`Discovery.FlatStore`).
- **A dangling slot link survives `clearKey`.** The code's comment at utils.go:61 says "Remove private key if exists". But `os.Stat` follows the link and reports a dangling one as missing, so the slot is kept; see Findings.
- **`deleteKey` and the listing disagree on "in use".** `deleteKey` compares only the key's last private file with the slot's target (utils.go:75). The listing marks a key as the default when any of its private files is that target (utils.go:134-136). See Findings.

Modules, in dependency order:

| module | file | contents |
|---|---|---|
| `Lexicographic` | `lexicographic.dfy` | lexicographic order on sequences |
| `Files` | `files.dfy` | the filesystem and the `os` calls |
| `FileWalk` | `walk.dfy` | `filepath.Walk` |
| `Layout` | `layout.dfy` | fixed paths, `SSHKey`, `parsePath` |
| `Discovery` | `discovery.dfy` | `loadSingleKey`, `loadSSHKeys` |
| `Activation` | `activation.dfy` | `clearKey`, `createLink`, the corrected clearing step |
| `Deletion` | `deletion.dfy` | `deleteKey` |
| `Lifecycle` | `lifecycle.dfy` | discovery after activation and deletion |
| `BackupName` | `backup.dfy` | `getBakFileName` and its inverse |

## Model

| member | source | states |
|---|---|---|
| Files.Stat | utils.go:63 | A missing path, or a link whose target is missing, reads as missing. A non-link entry, or a link to one, exists. Only a link can read as ELOOP. Longer chains are left to `StatHops`, which follows at most 40 hops. |
| Files.SelfLinkHops | utils.go:63 | Following a link to itself uses up every hop, however many are allowed. |
| Files.SelfLinkLoops | utils.go:63 | `Stat` of a link to itself is ELOOP, not "not exist", so `clearKey` removes such a slot. |
| FileWalk.Walk | utils.go:113 | The walk fails exactly when the root is missing, and otherwise starts at the root. Full contract: `FileWalk.WalkSpec`. |
| Layout.ParsePath | utils.go:153-171 | A missing slot resolves to "", a symlink to its target, and any other entry to its own path. The filesystem is only read. |
| Layout.ParsePathReadsBack | utils.go:153-171 | Resolving a link just created by `os.Symlink` gives back its target; resolving a free slot gives "". |
| Layout.SlotFacts | utils.go:62-68 | The two slots are distinct entries of `~/.ssh`. Neither lies in the store, and neither is a prefix of the other. |
| Files.Remove | utils.go:64 | `os.Remove` removes the path unless it is a non-empty directory, and touches no other entry. |
| Files.RemoveAll | utils.go:92 | `os.RemoveAll` keeps exactly the entries not at or below the path, unchanged. |
| Files.MakeSymlink | utils.go:104 | `os.Symlink` creates the link only when the slot is free and its directory exists. Otherwise nothing changes. |
| Files.StatNotExistShrinks | utils.go:63 | A path that `Stat` reports missing stays missing after entries are removed. |
| Files.RemovePreservesWellFormed | utils.go:64 | `Remove` leaves every remaining entry inside an existing directory. |
| Files.RemoveAllPreservesWellFormed | utils.go:92 | `RemoveAll` leaves every remaining entry inside an existing directory. |
| Files.MakeSymlinkPreservesWellFormed | utils.go:104 | `Symlink` leaves every entry inside an existing directory. |
| FileWalk.SortPaths | utils.go:113 | The walk order holds every path once, and in strictly increasing lexical order. |
| FileWalk.WalkSpec | utils.go:113-116 | A walk fails only on a missing root. Otherwise it visits the root first, then every entry reachable through directories, once each, in increasing order. |
| FileWalk.WalkSetFrame | utils.go:177 | A walk depends only on the entries at or below its root. |
| Discovery.ContainsFirst | utils.go:126 | A name containing ".pub" contains a '.'. |
| Discovery.FoldKeySpec | utils.go:118-138 | Over any increasing walk, each path field ends as the last matching file ("" if none). The default flag ends true iff some private-key file is the resolved slot; it is never reset. |
| Discovery.LoadSingleKey | utils.go:109-151 | A missing directory yields no key, and a returned key has both paths set. Full contract: `Discovery.LoadSingleKeySpec`. |
| Discovery.LoadSingleKeySpec | utils.go:109-151 | A key is returned iff the walk finds both a ".pub" file and another file, at any depth. Its paths are the last of each kind. It is the default iff the slot resolves to one of its private-key files. |
| Discovery.CollectKeysDomain | utils.go:182-195 | The fold's keys are exactly the base names of visited non-root directories whose load yields a key. |
| Discovery.CollectKeysValues | utils.go:186-192 | The value under each name is the key of the directory with that name visited last. |
| Discovery.LoadSSHKeys | utils.go:173-203 | Without a store the listing is empty. Full contract: `Discovery.LoadSSHKeysSpec`. |
| Discovery.LoadSSHKeysSpec | utils.go:173-203 | Without a store the result is empty. The aliases are exactly the base names of key directories below the store. A shared name gets the key of the directory visited last. |
| Discovery.DiscoveredKeysLieInStore | utils.go:173-203 | Both paths of every discovered key lie in the store, below an alias directory. |
| Discovery.AtMostOneDefault | utils.go:131-136 | In a flat store, at most one discovered key is the default. |
| Activation.ClearSlot | utils.go:63-65 | One step of `clearKey` removes the slot iff `Stat` does not report it missing and `Remove` accepts it; nothing else changes. |
| Activation.ClearKey | utils.go:60-72 | Only the two slots can change, and only by removal. Each slot is removed exactly when its step's `Stat`/`Remove` conditions hold. The result is a sub-filesystem of the input. |
| Activation.ClearSlotStable | utils.go:63-65 | A slot that one clearing step left in place is left in place again by a later one. |
| Activation.ClearKeyIdempotent | utils.go:60-72 | Clearing twice gives the same filesystem as clearing once. |
| Activation.ClearKeyPreservesWellFormed | utils.go:60-72 | Clearing keeps every entry inside an existing directory. |
| Activation.CreateLink | utils.go:100-107 | Activation changes nothing outside the two slots. Full contract: `Activation.CreateLinkSpec`. |
| Activation.CreateLinkSpec | utils.go:100-107 | Only the slots change. A slot `clearKey` freed links to `storePath/alias/<name>` exactly when `~/.ssh` is a directory, whether or not the alias exists. A slot `clearKey` kept keeps its old entry. |
| Activation.CreateLinkPreservesWellFormed | utils.go:100-107 | Activation keeps every entry inside an existing directory. |
| Activation.CreateLinkKeepsLinks | utils.go:100-107 | Activating the same alias again keeps every link the first activation made and changes nothing else. |
| Activation.CreateLinkIdempotent | utils.go:100-107 | When the first activation freed both slots, activating the same alias again changes nothing. |
| Activation.ChainedSlotBreaksIdempotence | utils.go:100-107 | In a well-formed filesystem whose private slot links to the absent public slot, a second `createLink("w")` replaces the private slot that the first one kept. |
| Activation.ChainedSlotRelinks | utils.go:60-72 | In any filesystem with that chain, with `~/.ssh` a directory and the alias's `id_rsa.pub` a file, the first activation keeps the private link and the second links it to the alias, because the public link made the chain resolve. |
| Activation.DanglingSlotBlocksActivation | utils.go:63 | A well-formed filesystem exists in which the private slot dangles into a deleted alias. There `createLink("work")` leaves the private slot on the deleted alias and points only the public slot at `work`. |
| Activation.ClearSlotLstat | utils.go:61-65 | The corrected step removes any entry in the slot, dangling links included, unless it is a non-empty directory. |
| Activation.ClearKeyLstat | utils.go:60-72 | The corrected clearing changes only the slots, by removal, and removes any slot entry that is not a directory, dangling links included. |
| Activation.CreateLinkLstat | utils.go:100-107 | Activation with the corrected clearing changes nothing outside the slots. Full contract: `Activation.CreateLinkLstatActivates`. |
| Activation.CreateLinkLstatActivates | utils.go:100-107 | With the corrected clearing step, both slots end linked to the alias whatever they held before, and the slot resolves to the alias's private key. Nothing else changes. |
| Deletion.SlotsOutsideAlias | utils.go:92 | Neither slot lies in an alias directory. |
| Deletion.DeleteKey | utils.go:74-97 | Any answer but "y" changes nothing. On "y" the entries that go are everything at or below `storePath/alias`, plus the slots `clearKey` removes when the key is in use. Nothing is rewritten. |
| Deletion.DeleteKeySlots | utils.go:85-92 | A confirmed deletion touches the slots only when the key is in use, and then exactly as `clearKey` does. |
| Deletion.DeleteKeyPreservesWellFormed | utils.go:74-97 | Deletion keeps every entry inside an existing directory. |
| Deletion.DeleteKeyByDefault | utils.go:74-97 | The corrected deletion: any answer but "y" changes nothing. On "y" everything at or below `storePath/alias` goes, plus the slots `clearKey` removes when the key is the listed default. |
| Lifecycle.FlatStoreShrinks | utils.go:92 | Removing entries keeps a store flat. |
| Lifecycle.SlotsOnlyKeepStore | utils.go:100-107 | A step that changes only the slots leaves the store's walk unchanged and a flat store flat. |
| Lifecycle.FlatWinner | utils.go:186-192 | In a flat store, the key listed under `n` is loaded from `storePath/n`. |
| Lifecycle.LoadedDefault | utils.go:134-136 | A loaded key is the default iff the slot resolves to one of its private-key files. |
| Lifecycle.DefaultOfAliasDir | utils.go:131-136 | When the slot resolves to `alias`'s `id_rsa`, the key of `storePath/n` is the default iff `n` is `alias` and that file exists. |
| Lifecycle.KeyFileInDir | utils.go:126-132 | An alias's `id_rsa` file is classified as a private key of that alias. |
| Lifecycle.DefaultDirIsAlias | utils.go:131-136 | The only directory of the store whose private-key files include `alias`'s `id_rsa` is `storePath/alias`. |
| Lifecycle.OnlyLinkedAliasIsDefault | utils.go:131-136 | Once the slot leads to `alias`'s `id_rsa`, no other listed alias is the default, in any store. |
| Lifecycle.LinkedAliasIsTheDefault | utils.go:131-136 | Once the slot leads to `alias`'s `id_rsa`, no other listed alias is the default, in any store. In a flat store, `alias` is the default whenever it is listed and has that file. |
| Lifecycle.ActivationMakesAliasTheDefault | utils.go:100-107 | After an activation that freed the private slot, no other alias is listed as the default, in any store. In a flat store, `alias` is listed as the default whenever it is listed and has an `id_rsa` file. |
| Lifecycle.ActivationLstatMakesAliasTheDefault | utils.go:100-107 | With the corrected clearing step, the same two facts hold after every activation, unless a slot is a non-empty directory or `~/.ssh` is missing. The second fact again needs a flat store. |
| Lifecycle.DeletedAliasNotDiscovered | utils.go:91-92 | After a confirmed deletion, the alias is not listed any more (flat store). |
| Lifecycle.NoSlotNoDefault | utils.go:134-136 | Without `~/.ssh/id_rsa`, no listed key is the default. |
| Lifecycle.DeletingActiveKeyLeavesNoDefault | utils.go:85-89 | Deleting the key in use, when its slot links to an existing file, removes the slot. Afterwards no listed key is the default. |
| Lifecycle.InUseIsListedDefault | utils.go:75 | A listed key that `deleteKey` finds in use is always the listed default. |
| Lifecycle.ListedDefaultNotInUse | utils.go:74-97 | In a flat store, suppose the slot links to `alias`'s `id_rsa` and the alias holds another private file sorting after it. Then the listing marks `alias` as the default, but `deleteKey` does not find it in use. A confirmed deletion removes the alias and leaves the slot dangling into it. |
| Lifecycle.ListedDefaultSurvivesDeletion | utils.go:74-97 | A concrete well-formed store (alias `a` with `id_rsa`, `id_rsa.pub` and `notes`) in which exactly that happens. |
| Lifecycle.DeletingListedDefaultLeavesNoDefault | utils.go:85-92 | With the corrected test, deleting the listed default, when its slot links to an existing file, removes the slot. Afterwards no listed key is the default. |
| BackupName.AppendInt | utils.go:206 | A non-negative value prints as at least `width` digits. A negative one prints as a minus sign followed by at least `width` digits. |
| BackupName.Stamp | utils.go:206 | The stamp of a valid time with a non-negative year is at least fourteen digits. Exactly fourteen, for years below 10000: `BackupName.StampFixed`. |
| BackupName.GetBakFileName | utils.go:205-207 | The name always starts with "skm-" and ends with ".tar.gz". |
| BackupName.DigitsLength | utils.go:206 | A numeral has at most `w` digits iff its value is below 10^w. The one exception is zero at width 0: it is below 10^0, yet its numeral "0" has one digit. |
| BackupName.PaddedIsFixed | utils.go:206 | Zero-padding a numeral below 10^w to width `w` gives its last `w` digits. |
| BackupName.FixedOfValue | utils.go:206 | Any digit string is the fixed-width numeral of its value. |
| BackupName.ValueOfFixed | utils.go:206 | A fixed-width numeral reads back as its value. |
| BackupName.BakFileNameLength | utils.go:205-207 | For a valid time, the name has 25 characters iff the year lies in 0..9999. |
| BackupName.FieldsOfStamp | utils.go:206 | The six fields read back from a stamp are the time it was made from. |
| BackupName.FixedStampOfFields | utils.go:206 | The fields of fourteen digits forming a valid time have a four-digit year, and their fixed-width numerals are those digits again. |
| BackupName.StampOfFields | utils.go:206 | Fourteen digits that form a valid time are that time's stamp. |
| BackupName.ParseBakFileName | utils.go:205-207 | Only a 25-character name with the backup prefix and suffix parses. Inverse of `getBakFileName`: `BackupName.BakFileNameRoundTrip` and `BackupName.BakFileNameOnto`. |
| BackupName.BakFileNameRoundTrip | utils.go:205-207 | Parsing the name of a valid time with a four-digit year gives that time back. |
| BackupName.BakFileNameOnto | utils.go:205-207 | Every name that parses to a valid time is that time's name. |

## Left out

- `execute`, `parseArgs` and the logo: these spawn external programs or draw the user interface.
- Coloured output and `fmt.Print`/`fmt.Scan`: the confirmation answer is the `input` parameter of `Deletion.DeleteKey`, and nothing is printed.
- `time.Now()` and `$HOME`: the time is a parameter of `BackupName.GetBakFileName`. `$HOME` is the fixed path `/home/user`. No lemma's statement depends on that value, but some proofs compare path components by position and so rely on its two components.
- Layout.ParsePath: the exit on a failing `Readlink` is not modelled. A symlink of the model always has a readable target, so that path is unreachable.
- Walk errors other than a missing root: permission errors, and entries vanishing mid-walk, are not modelled. So the only walk error is the one at the root, before anything is collected.
- Discovery.LoadSSHKeysSpec: "the entries collected before a walk error are still returned" holds vacuously. The model's only walk error leaves nothing collected.
- Symbolic links in the middle of a path: `Stat` follows a link only in the last component, and a walk never descends into a link.
- Relative link targets, and `ENOTDIR`: a link's target is taken as an absolute path. A link whose target lies below a regular file, such as `~/.skm/f/id_rsa` with `f` a file, makes Go's `os.Stat` fail with `ENOTDIR`, which is not a not-exist error, so utils.go:63-64 removes that slot; the model reads such a target as missing and keeps the slot.
- Link targets are normalized component lists. Go compares the raw `Readlink` string with walk paths by string equality (utils.go:75, 134). A target spelled differently, such as `/home/user/.skm/a/./id_rsa` or `//home/user/.skm/a/id_rsa`, still resolves for `os.Stat`, but in Go it matches no walk path. Such a target marks no key as the default or in use. The model cannot represent it.
- Cleaning by `filepath.Join`: an alias is a single path component. Aliases such as "", ".", ".." or ones containing "/" are not modelled.
- Permission errors, other `Stat` errors, and races between two `skm` processes: nothing in the source guards against them.
- Discovery.AtMostOneDefault: proved only for a flat store. In a store with nested directories, the slot target lies in an alias directory and in every directory above it inside that alias, so several listed keys can be the default.
- Lifecycle.ActivationMakesAliasTheDefault: "`alias` is listed as the default" is stated only for a flat store. In a nested store, a deeper directory also named `alias`, visited after `storePath/alias`, takes over the listing entry. "No other alias is the default" holds in every store.
- Lifecycle.LinkedAliasIsTheDefault: "`alias` is listed as the default" is stated only for a flat store, for the same reason: a deeper directory also named `alias` can take over the listing entry. "No other alias is the default" holds in every store.
- Lifecycle.ActivationLstatMakesAliasTheDefault: "`alias` is listed as the default" is stated only for a flat store, for the same reason. "No other alias is the default" holds in every store.
- Lifecycle.DeletedAliasNotDiscovered: also stated only for a flat store. A nested directory of another alias with the same base name would still be listed.
- Activation.CreateLinkIdempotent: proved only when the first activation freed both slots. A kept dangling link or a kept non-empty directory stays as it is on the second activation too. The exception is a private slot whose link leads through the absent public slot: the first activation links the public slot, the chain then resolves, and the second activation replaces the private slot (`Activation.ChainedSlotBreaksIdempotence`). `Activation.CreateLinkKeepsLinks` states what holds in general.
- BackupName.BakFileNameLength: the 25-character name is guaranteed only for years 0 through 9999. Go prints a sign for a negative year and all digits of a year past 9999.
- BackupName.GetBakFileName: Go's `appendInt` has fast paths for two and four digits. They print the same characters as its general path, which is the one modelled.

## Findings

| source | as written | input that shows it | evidently intended | confidence | as-written member | corrected member |
|---|---|---|---|---|---|---|
| utils.go:60-72 | `clearKey` checks each slot with `os.Stat`, which follows the link. A slot whose link dangles counts as missing and is kept. `createLink`'s `os.Symlink` then fails on the occupied slot, and the error is ignored. | `~/.ssh/id_rsa` linked to `~/.skm/gone/id_rsa` after `gone` was deleted or never existed; `work` a complete pair. `createLink("work")` links only `id_rsa.pub` to `work`, and the default identity stays on `gone`. | Remove the slot whenever any entry is there ("Remove private key if exists"), as an `os.Lstat` check does, so activation always takes effect. | not executed | Activation.DanglingSlotBlocksActivation | Activation.CreateLinkLstatActivates |
| utils.go:74-89 | `deleteKey` treats the key as in use only when its `PrivateKey` equals where `~/.ssh/id_rsa` leads. `loadSingleKey` sets `PrivateKey` to the last non-".pub" file of the walk, but sets `IsDefault` when any of those files is that target (utils.go:131-136). | `~/.skm/a` holds `id_rsa`, `id_rsa.pub` and `notes`, and `~/.ssh/id_rsa` links to `~/.skm/a/id_rsa`. The listing marks `a` as the default. `delete a` answered "y" gives no in-use warning and does not clear the slots, so it removes `a` and leaves `~/.ssh/id_rsa` dangling into it. | Treat the key as in use when it is the listed default, so that deleting it clears the slots. | not executed | Lifecycle.ListedDefaultSurvivesDeletion | Lifecycle.DeletingListedDefaultLeavesNoDefault |

=== FILE: activation.dfy ===
/** Activation: `clearKey` empties the two default-identity slots and `createLink`
    points them at an alias's key pair. */
module Activation {
  import opened Files
  import opened Layout

  /** The slot is removed by a clearing step: `Stat` does not report it missing and
      `Remove` succeeds on it. */
  predicate Clears(fs: FileSystem, slot: Path) {
    slot in fs && Stat(fs, slot) != NotExist && !(fs[slot].Dir? && HasChildren(fs, slot))
  }

  /** One half of `clearKey`: remove `slot` unless `os.Stat` reports it missing.
      `Stat` follows symbolic links, so a dangling link counts as missing and stays. */
  function ClearSlot(fs: FileSystem, slot: Path): (r: FileSystem)
    ensures AgreeExcept(fs, r, slot, slot)
    ensures slot in r ==> slot in fs && r[slot] == fs[slot]
    ensures slot !in r <==> slot !in fs || Clears(fs, slot)
  {
    if Stat(fs, slot) != NotExist then Remove(fs, slot) else fs
  }

  /** `clearKey`: the private slot first, then the public one. Only the slots change,
      and a slot is only ever removed, never rewritten. A slot survives only if it was
      already absent, `Stat` (when its turn came) found it missing, or it is a
      non-empty directory. */
  function ClearKey(fs: FileSystem): (r: FileSystem)
    ensures AgreeExcept(fs, r, PrivateSlot, PublicSlot)
    ensures PrivateSlot in r ==> PrivateSlot in fs && r[PrivateSlot] == fs[PrivateSlot]
    ensures PublicSlot in r ==> PublicSlot in fs && r[PublicSlot] == fs[PublicSlot]
    ensures PrivateSlot !in r <==> PrivateSlot !in fs || Clears(fs, PrivateSlot)
    ensures PublicSlot !in r <==> PublicSlot !in fs || Clears(ClearSlot(fs, PrivateSlot), PublicSlot)
    ensures SubFileSystem(r, fs)
  {
    SlotFacts();
    ClearSlot(ClearSlot(fs, PrivateSlot), PublicSlot)
  }

  /** Clearing a slot that an earlier clearing step left in place changes nothing. */
  lemma ClearSlotStable(fs: FileSystem, fs': FileSystem, slot: Path)
    requires SubFileSystem(fs', fs)
    requires slot in fs' && slot in fs && !Clears(fs, slot)
    requires fs[slot].Dir? && HasChildren(fs, slot) ==> HasChildren(fs', slot)
    ensures ClearSlot(fs', slot) == fs'
  {
    if Stat(fs, slot) == NotExist {
      StatNotExistShrinks(fs', fs, slot, MaxSymlinkHops);
    }
  }

  /** Clearing twice is clearing once. */
  lemma {:induction false} ClearKeyIdempotent(fs: FileSystem)
    ensures ClearKey(ClearKey(fs)) == ClearKey(fs)
  {
    SlotFacts();
    var c1 := ClearSlot(fs, PrivateSlot);
    var c := ClearKey(fs);
    assert c == ClearSlot(c1, PublicSlot);
    if PrivateSlot in c {
      if fs[PrivateSlot].Dir? && HasChildren(fs, PrivateSlot) {
        var q :| q in fs && |q| == |PrivateSlot| + 1 && q[..|PrivateSlot|] == PrivateSlot;
        assert q != PublicSlot;
        assert q in c;
      }
      ClearSlotStable(fs, c, PrivateSlot);
    }
    assert ClearSlot(c, PrivateSlot) == c;
    if PublicSlot in c {
      assert c == c1;
    }
    assert ClearSlot(c, PublicSlot) == c;
  }

  lemma ClearKeyPreservesWellFormed(fs: FileSystem)
    requires WellFormed(fs)
    ensures WellFormed(ClearKey(fs))
  {
    var c1 := ClearSlot(fs, PrivateSlot);
    RemovePreservesWellFormed(fs, PrivateSlot);
    assert WellFormed(c1);
    RemovePreservesWellFormed(c1, PublicSlot);
  }

  /** Where `createLink(alias)` points a slot: `storePath/alias/<name>`. */
  function LinkTarget(alias: Name, name: Name): Path {
    StorePath + [alias, name]
  }

  /** `createLink(alias)`: clear both slots, then link each to the alias's key file.
      The alias is not checked, and a failed `os.Symlink` is ignored. */
  function CreateLink(fs: FileSystem, alias: Name): (r: FileSystem)
    ensures AgreeExcept(fs, r, PrivateSlot, PublicSlot)
  {
    var cleared := ClearKey(fs);
    var linked := MakeSymlink(cleared, LinkTarget(alias, PrivateKeyName), PrivateSlot);
    MakeSymlink(linked, LinkTarget(alias, PublicKeyName), PublicSlot)
  }

  /** Only the slots change. A slot that `clearKey` freed holds a link into the alias
      directory whenever `~/.ssh` is a directory (and is absent otherwise); a slot
      `clearKey` left in place keeps its old entry, because `os.Symlink` refuses to
      overwrite it. */
  lemma CreateLinkSpec(fs: FileSystem, alias: Name)
    ensures var r := CreateLink(fs, alias);
      && AgreeExcept(fs, r, PrivateSlot, PublicSlot)
      && (PrivateSlot in ClearKey(fs) ==> PrivateSlot in r && r[PrivateSlot] == fs[PrivateSlot])
      && (PublicSlot in ClearKey(fs) ==> PublicSlot in r && r[PublicSlot] == fs[PublicSlot])
      && (PrivateSlot !in ClearKey(fs) ==>
            (PrivateSlot in r <==> ParentIsDir(fs, PrivateSlot))
            && (PrivateSlot in r ==> r[PrivateSlot] == Symlink(LinkTarget(alias, PrivateKeyName))))
      && (PublicSlot !in ClearKey(fs) ==>
            (PublicSlot in r <==> ParentIsDir(fs, PublicSlot))
            && (PublicSlot in r ==> r[PublicSlot] == Symlink(LinkTarget(alias, PublicKeyName))))
  {
    SlotFacts();
    var cleared := ClearKey(fs);
    var linked := MakeSymlink(cleared, LinkTarget(alias, PrivateKeyName), PrivateSlot);
    assert ParentIsDir(cleared, PrivateSlot) == ParentIsDir(fs, PrivateSlot);
    assert ParentIsDir(linked, PublicSlot) == ParentIsDir(fs, PublicSlot);
  }

  lemma CreateLinkPreservesWellFormed(fs: FileSystem, alias: Name)
    requires WellFormed(fs)
    ensures WellFormed(CreateLink(fs, alias))
  {
    var cleared := ClearKey(fs);
    ClearKeyPreservesWellFormed(fs);
    var linked := MakeSymlink(cleared, LinkTarget(alias, PrivateKeyName), PrivateSlot);
    MakeSymlinkPreservesWellFormed(cleared, LinkTarget(alias, PrivateKeyName), PrivateSlot);
    MakeSymlinkPreservesWellFormed(linked, LinkTarget(alias, PublicKeyName), PublicSlot);
  }

  /** Activating the same alias again keeps every link the first activation made, and
      changes nothing outside the slots. */
  lemma CreateLinkKeepsLinks(fs: FileSystem, alias: Name)
    requires WellFormed(fs)
    ensures var r1 := CreateLink(fs, alias); var r2 := CreateLink(r1, alias);
      && AgreeExcept(r1, r2, PrivateSlot, PublicSlot)
      && (PrivateSlot in r1 && r1[PrivateSlot] == Symlink(LinkTarget(alias, PrivateKeyName)) ==>
            PrivateSlot in r2 && r2[PrivateSlot] == r1[PrivateSlot])
      && (PublicSlot in r1 && r1[PublicSlot] == Symlink(LinkTarget(alias, PublicKeyName)) ==>
            PublicSlot in r2 && r2[PublicSlot] == r1[PublicSlot])
  {
    var r1 := CreateLink(fs, alias);
    CreateLinkPreservesWellFormed(fs, alias);
    CreateLinkSpec(r1, alias);
    SlotFacts();
  }

  /** When the first activation linked both slots, a second one changes nothing. */
  lemma CreateLinkIdempotent(fs: FileSystem, alias: Name)
    requires WellFormed(fs)
    requires PrivateSlot !in ClearKey(fs) && PublicSlot !in ClearKey(fs)
    requires ParentIsDir(fs, PrivateSlot)
    ensures CreateLink(CreateLink(fs, alias), alias) == CreateLink(fs, alias)
  {
    SlotFacts();
    CreateLinkSpec(fs, alias);
    CreateLinkKeepsLinks(fs, alias);
    var r1 := CreateLink(fs, alias);
    var r2 := CreateLink(r1, alias);
    CreateLinkSpec(r1, alias);
    assert forall q :: q in r2 <==> q in r1;
  }

  /** Where idempotence stops: `~/.ssh/id_rsa` is a link to `~/.ssh/id_rsa.pub`, which
      is absent. The first `createLink("w")` keeps the private slot (its link leads
      nowhere yet) and links the public slot to `w`; that link makes the private slot's
      chain resolve, so the second `createLink("w")` clears the private slot and links
      it to `w`'s `id_rsa`. */
  lemma ChainedSlotBreaksIdempotence()
    ensures WellFormed(ChainedSlotExample())
    ensures var once := CreateLink(ChainedSlotExample(), "w");
      && PrivateSlot in once && once[PrivateSlot] == Symlink(PublicSlot)
      && var twice := CreateLink(once, "w");
         PrivateSlot in twice && twice[PrivateSlot] == Symlink(LinkTarget("w", PrivateKeyName))
  {
    ChainedSlotExampleWellFormed();
    ChainedSlotExampleValues();
    ChainedSlotRelinks(ChainedSlotExample(), "w");
  }

  lemma ChainedSlotExampleWellFormed()
    ensures WellFormed(ChainedSlotExample())
  {
    var fs := ChainedSlotExample();
    forall p | p in fs ensures ParentIsDir(fs, p) {
      assert Parent(StorePath + ["w"]) == StorePath;
      assert Parent(LinkTarget("w", PrivateKeyName)) == StorePath + ["w"];
      assert Parent(LinkTarget("w", PublicKeyName)) == StorePath + ["w"];
      assert Parent(PrivateSlot) == SshPath;
      assert Parent(SshPath) == Home && Parent(StorePath) == Home && Parent(Home) == ["home"];
    }
  }

  /** Any filesystem whose private slot links to the absent public slot, with `~/.ssh`
      a directory and the alias's `id_rsa.pub` a file. */
  lemma ChainedSlotRelinks(fs: FileSystem, alias: Name)
    requires PrivateSlot in fs && fs[PrivateSlot] == Symlink(PublicSlot) && PublicSlot !in fs
    requires SshPath in fs && fs[SshPath].Dir?
    requires LinkTarget(alias, PublicKeyName) in fs && fs[LinkTarget(alias, PublicKeyName)].File?
    ensures var once := CreateLink(fs, alias);
      && PrivateSlot in once && once[PrivateSlot] == Symlink(PublicSlot)
      && var twice := CreateLink(once, alias);
         PrivateSlot in twice && twice[PrivateSlot] == Symlink(LinkTarget(alias, PrivateKeyName))
  {
    SlotFacts();
    var pub := LinkTarget(alias, PublicKeyName);
    assert StatHops(fs, PrivateSlot, MaxSymlinkHops) == StatHops(fs, PublicSlot, MaxSymlinkHops - 1);
    assert Stat(fs, PrivateSlot) == NotExist;
    assert PrivateSlot in ClearKey(fs) && PublicSlot !in ClearKey(fs);
    CreateLinkSpec(fs, alias);
    var once := CreateLink(fs, alias);
    assert pub != PrivateSlot && pub != PublicSlot by {
      assert pub[2] != PrivateSlot[2];
    }
    assert once[PublicSlot] == Symlink(pub) && pub in once && once[pub].File?;
    assert StatHops(once, PrivateSlot, MaxSymlinkHops) == StatHops(once, PublicSlot, MaxSymlinkHops - 1);
    assert StatHops(once, PublicSlot, MaxSymlinkHops - 1) == StatHops(once, pub, MaxSymlinkHops - 2);
    assert Stat(once, PrivateSlot) == Exists;
    assert PrivateSlot !in ClearKey(once);
    CreateLinkSpec(once, alias);
    assert SshPath in once;
  }

  /** `~/.ssh/id_rsa` links to the absent `~/.ssh/id_rsa.pub`; `w` is a complete pair. */
  function ChainedSlotExample(): FileSystem {
    map[
      ["home"] := Dir,
      Home := Dir,
      SshPath := Dir,
      StorePath := Dir,
      StorePath + ["w"] := Dir,
      LinkTarget("w", PrivateKeyName) := File,
      LinkTarget("w", PublicKeyName) := File,
      PrivateSlot := Symlink(PublicSlot)
    ]
  }

  /** The entries of `ChainedSlotExample` the activation steps look at. */
  lemma ChainedSlotExampleValues()
    ensures var fs := ChainedSlotExample();
      && PrivateSlot in fs && fs[PrivateSlot] == Symlink(PublicSlot) && PublicSlot !in fs
      && SshPath in fs && fs[SshPath].Dir?
      && LinkTarget("w", PublicKeyName) in fs && fs[LinkTarget("w", PublicKeyName)].File?
  {
    SlotFacts();
    assert PublicSlot[3] == PublicKeyName && PrivateSlot[3] == PrivateKeyName;
    assert StorePath[2] != SshPath[2];
    assert LinkTarget("w", PublicKeyName)[4] != LinkTarget("w", PrivateKeyName)[4];
    assert LinkTarget("w", PublicKeyName)[2] != PrivateSlot[2];
  }

  // ---------------------------------------------------------------------------
  // Clearing with Lstat instead of Stat

  /** A slot whose dangling link blocks activation: `~/.ssh/id_rsa` still points at
      the key of `gone`, an alias whose directory no longer exists (activating an alias
      that was never created leaves exactly this), while `work` is a complete key pair.
      `clearKey` keeps the dangling link, `os.Symlink` then refuses the slot, and
      `createLink("work")` leaves the private slot on `gone` while linking the public
      slot to `work`: a mismatched pair, with no error reported. */
  lemma DanglingSlotBlocksActivation()
    ensures var fs := DanglingSlotExample();
      && WellFormed(fs)
      && CreateLink(fs, "work")[PrivateSlot] == Symlink(LinkTarget("gone", PrivateKeyName))
      && CreateLink(fs, "work")[PublicSlot] == Symlink(LinkTarget("work", PublicKeyName))
  {
    var fs := DanglingSlotExample();
    SlotFacts();
    DanglingSlotExampleWellFormed();
    var gone := LinkTarget("gone", PrivateKeyName);
    assert PrivateSlot in fs && fs[PrivateSlot] == Symlink(gone);
    assert gone !in fs by {
      assert gone[3] == "gone";
    }
    assert Stat(fs, PrivateSlot) == NotExist;
    assert PublicSlot !in fs by {
      assert PublicSlot[3] == PublicKeyName;
    }
    CreateLinkSpec(fs, "work");
  }

  lemma DanglingSlotExampleWellFormed()
    ensures WellFormed(DanglingSlotExample())
  {
    var fs := DanglingSlotExample();
    forall p | p in fs ensures ParentIsDir(fs, p) {
      assert Parent(StorePath + ["work"]) == StorePath;
      assert Parent(LinkTarget("work", PrivateKeyName)) == StorePath + ["work"];
      assert Parent(LinkTarget("work", PublicKeyName)) == StorePath + ["work"];
      assert Parent(PrivateSlot) == SshPath;
      assert Parent(SshPath) == Home && Parent(StorePath) == Home && Parent(Home) == ["home"];
    }
  }

  function DanglingSlotExample(): FileSystem {
    map[
      ["home"] := Dir,
      Home := Dir,
      SshPath := Dir,
      StorePath := Dir,
      StorePath + ["work"] := Dir,
      LinkTarget("work", PrivateKeyName) := File,
      LinkTarget("work", PublicKeyName) := File,
      PrivateSlot := Symlink(LinkTarget("gone", PrivateKeyName))
    ]
  }

  /** One half of `clearKey` as its comment describes it ("remove ... if exists"):
      remove any entry in the slot, dangling links included, as an `os.Lstat` check
      would. */
  function ClearSlotLstat(fs: FileSystem, slot: Path): (r: FileSystem)
    ensures AgreeExcept(fs, r, slot, slot)
    ensures slot !in r <==> slot !in fs || !(fs[slot].Dir? && HasChildren(fs, slot))
  {
    if slot in fs then Remove(fs, slot) else fs
  }

  /** `clearKey` with the corrected step: every entry in a slot goes unless it is a
      non-empty directory. */
  function ClearKeyLstat(fs: FileSystem): (r: FileSystem)
    ensures SubFileSystem(r, fs) && AgreeExcept(fs, r, PrivateSlot, PublicSlot)
    ensures PrivateSlot in fs && !fs[PrivateSlot].Dir? ==> PrivateSlot !in r
    ensures PublicSlot in fs && !fs[PublicSlot].Dir? ==> PublicSlot !in r
  {
    ClearSlotLstat(ClearSlotLstat(fs, PrivateSlot), PublicSlot)
  }

  /** `createLink` on top of the corrected clearing step. */
  function CreateLinkLstat(fs: FileSystem, alias: Name): (r: FileSystem)
    ensures AgreeExcept(fs, r, PrivateSlot, PublicSlot)
  {
    var cleared := ClearKeyLstat(fs);
    var linked := MakeSymlink(cleared, LinkTarget(alias, PrivateKeyName), PrivateSlot);
    MakeSymlink(linked, LinkTarget(alias, PublicKeyName), PublicSlot)
  }

  /** With the corrected clearing step activation always takes effect: unless a slot
      is a non-empty directory or `~/.ssh` is missing, both slots end up linked to the
      alias, whatever they held before, and the default identity then resolves to the
      alias's private key. */
  lemma CreateLinkLstatActivates(fs: FileSystem, alias: Name)
    requires ParentIsDir(fs, PrivateSlot)
    requires !(PrivateSlot in fs && fs[PrivateSlot].Dir? && HasChildren(fs, PrivateSlot))
    requires !(PublicSlot in fs && fs[PublicSlot].Dir? && HasChildren(fs, PublicSlot))
    ensures var r := CreateLinkLstat(fs, alias);
      && AgreeExcept(fs, r, PrivateSlot, PublicSlot)
      && PrivateSlot in r && r[PrivateSlot] == Symlink(LinkTarget(alias, PrivateKeyName))
      && PublicSlot in r && r[PublicSlot] == Symlink(LinkTarget(alias, PublicKeyName))
      && ParsePath(r, PrivateSlot) == LinkTarget(alias, PrivateKeyName)
  {
    SlotFacts();
    var cleared := ClearKeyLstat(fs);
    assert ParentIsDir(cleared, PrivateSlot);
    var linked := MakeSymlink(cleared, LinkTarget(alias, PrivateKeyName), PrivateSlot);
    assert ParentIsDir(linked, PublicSlot);
  }
}

=== FILE: backup.dfy ===
/** `getBakFileName`: the name of a backup archive, `skm-<stamp>.tar.gz`, where the
    stamp is the time laid out by Go's reference layout "20060102150405". The time is a
    parameter instead of `time.Now()`. */
module BackupName {
  import opened Files

  /** The calendar fields of a `time.Time` that the layout prints. */
  datatype DateTime = DateTime(year: int, month: int, day: int, hour: int, minute: int, second: int)

  /** The ranges a `time.Time` keeps its fields in (the year is unbounded). */
  predicate Valid(t: DateTime) {
    && 1 <= t.month <= 12 && 1 <= t.day <= 31
    && 0 <= t.hour < 24 && 0 <= t.minute < 60 && 0 <= t.second < 60
  }

  // ---------------------------------------------------------------------------
  // Decimal digits

  predicate IsDigit(c: char) {
    '0' <= c <= '9'
  }

  predicate AllDigits(s: string) {
    forall i :: 0 <= i < |s| ==> IsDigit(s[i])
  }

  function DigitChar(d: nat): (c: char)
    requires d < 10
    ensures IsDigit(c)
  {
    ('0' as int + d) as char
  }

  function DigitValue(c: char): (d: nat)
    requires IsDigit(c)
    ensures d < 10 && DigitChar(d) == c
  {
    c as int - '0' as int
  }

  function Pow10(w: nat): (p: nat)
    ensures p > 0
  {
    if w == 0 then 1 else 10 * Pow10(w - 1)
  }

  /** The value of a string of decimal digits, most significant first. */
  function Value(s: string): nat
    requires AllDigits(s)
    decreases |s|
  {
    if s == [] then 0 else 10 * Value(s[..|s| - 1]) + DigitValue(s[|s| - 1])
  }

  /** The shortest decimal numeral of `u` ("0" for zero). */
  function Digits(u: nat): (s: string)
    ensures |s| > 0 && AllDigits(s)
    decreases u
  {
    if u < 10 then [DigitChar(u)] else Digits(u / 10) + [DigitChar(u % 10)]
  }

  function Zeros(n: nat): (s: string)
    ensures |s| == n && forall i :: 0 <= i < n ==> s[i] == '0'
  {
    seq(n, _ => '0')
  }

  /** `appendInt(x, width)` of Go's `time` package: a minus sign for a negative value,
      then the magnitude's numeral left-padded with zeros to `width` digits. Its fast
      paths for two and four digits print the same characters. */
  function AppendInt(x: int, width: nat): (r: string)
    ensures x >= 0 ==> |r| >= width && AllDigits(r)
    ensures x < 0 ==> |r| > width && r[0] == '-' && AllDigits(r[1..])
  {
    var ds := Digits(if x < 0 then -x else x);
    (if x < 0 then "-" else "") + Zeros(if |ds| < width then width - |ds| else 0) + ds
  }

  /** The last `w` decimal digits of `v`, zeros included. */
  function FixedDigits(v: nat, w: nat): (s: string)
    ensures |s| == w && AllDigits(s)
  {
    if w == 0 then [] else FixedDigits(v / 10, w - 1) + [DigitChar(v % 10)]
  }

  // ---------------------------------------------------------------------------
  // The file name

  /** Layout "20060102150405": year in four digits, then month, day, hour (24-hour
      clock), minute and second in two digits each. */
  function Stamp(t: DateTime): (r: string)
    ensures Valid(t) && t.year >= 0 ==> |r| >= 14 && AllDigits(r)
  {
    AppendInt(t.year, 4) + AppendInt(t.month, 2) + AppendInt(t.day, 2)
    + AppendInt(t.hour, 2) + AppendInt(t.minute, 2) + AppendInt(t.second, 2)
  }

  const BakPrefix: string := "skm-"
  const BakSuffix: string := ".tar.gz"

  /** `getBakFileName()` at time `t`. */
  function GetBakFileName(t: DateTime): (r: string)
    ensures |r| >= |BakPrefix| + |BakSuffix|
    ensures r[..|BakPrefix|] == BakPrefix
    ensures r[|r| - |BakSuffix|..] == BakSuffix
  {
    BakPrefix + Stamp(t) + BakSuffix
  }

  /** Reads a backup name back: `skm-`, fourteen digits, `.tar.gz`. */
  function ParseBakFileName(s: string): (r: Option<DateTime>)
    ensures r.Some? ==> |s| == 25 && s[..4] == BakPrefix && s[18..] == BakSuffix
  {
    if |s| == 25 && s[..4] == BakPrefix && s[18..] == BakSuffix && AllDigits(s[4..18]) then
      Some(Fields(s[4..18]))
    else None
  }

  /** The time fields of a fourteen-digit stamp. */
  function Fields(ds: string): DateTime
    requires |ds| == 14 && AllDigits(ds)
  {
    DateTime(Field(ds, 0, 4), Field(ds, 4, 6), Field(ds, 6, 8),
             Field(ds, 8, 10), Field(ds, 10, 12), Field(ds, 12, 14))
  }

  /** The value of the digits `ds[i..j]`. */
  function Field(ds: string, i: nat, j: nat): nat
    requires AllDigits(ds) && i <= j <= |ds|
  {
    assert forall k :: 0 <= k < j - i ==> ds[i..j][k] == ds[i + k];
    Value(ds[i..j])
  }

  // ---------------------------------------------------------------------------
  // Lemmas

  lemma {:induction false} DigitsLength(u: nat, w: nat)
    ensures u < Pow10(w) <==> |Digits(u)| <= w || (u == 0 && w == 0)
    decreases u
  {
    if u >= 10 {
      if w > 0 {
        DigitsLength(u / 10, w - 1);
      } else {
        DigitsLength(u / 10, 0);
      }
    }
  }

  lemma {:induction false} ZerosFixed(n: nat)
    ensures FixedDigits(0, n) == Zeros(n)
  {
    if n > 0 {
      ZerosFixed(n - 1);
      assert Zeros(n) == Zeros(n - 1) + ['0'];
    }
  }

  /** Padding the numeral of `v` to `w` digits gives the last `w` digits of `v`, when
      `v` has at most `w` digits. */
  lemma {:induction false} PaddedIsFixed(v: nat, w: nat)
    requires w > 0 && v < Pow10(w)
    ensures AppendInt(v, w) == FixedDigits(v, w)
    decreases w
  {
    DigitsLength(v, w);
    if v < 10 {
      ZerosFixed(w - 1);
      assert FixedDigits(v, w) == FixedDigits(0, w - 1) + [DigitChar(v)];
    } else {
      PaddedIsFixed(v / 10, w - 1);
      DigitsLength(v / 10, w - 1);
      var ds := Digits(v / 10);
      assert Zeros(w - |Digits(v)|) == Zeros(w - 1 - |ds|);
    }
  }

  lemma {:induction false} ValueOfFixed(v: nat, w: nat)
    requires v < Pow10(w)
    ensures Value(FixedDigits(v, w)) == v
    decreases w
  {
    if w > 0 {
      var s := FixedDigits(v, w);
      assert s[..w - 1] == FixedDigits(v / 10, w - 1);
      ValueOfFixed(v / 10, w - 1);
    }
  }

  /** The last decimal digit of `10 * a + b` is `b`, and the rest is `a`. */
  lemma DivModTen(a: nat, b: nat)
    requires b < 10
    ensures (10 * a + b) / 10 == a && (10 * a + b) % 10 == b
  {
  }

  lemma {:induction false} FixedOfValue(s: string)
    requires AllDigits(s)
    ensures Value(s) < Pow10(|s|)
    ensures FixedDigits(Value(s), |s|) == s
    decreases |s|
  {
    if s != [] {
      var init := s[..|s| - 1];
      FixedOfValue(init);
      DivModTen(Value(init), DigitValue(s[|s| - 1]));
      assert s == init + [s[|s| - 1]];
    }
  }

  lemma FieldFixed(ds: string, i: nat, j: nat)
    requires AllDigits(ds) && i <= j <= |ds|
    ensures Field(ds, i, j) < Pow10(j - i)
    ensures FixedDigits(Field(ds, i, j), j - i) == ds[i..j]
  {
    assert forall k :: 0 <= k < j - i ==> ds[i..j][k] == ds[i + k];
    FixedOfValue(ds[i..j]);
  }

  /** With the year in 0..9999 the stamp is the fourteen digits of the fields. */
  lemma StampFixed(t: DateTime)
    requires Valid(t) && 0 <= t.year < 10000
    ensures Stamp(t) == FixedStamp(t)
  {
    PaddedIsFixed(t.year, 4);
    PaddedIsFixed(t.month, 2);
    PaddedIsFixed(t.day, 2);
    PaddedIsFixed(t.hour, 2);
    PaddedIsFixed(t.minute, 2);
    PaddedIsFixed(t.second, 2);
  }

  /** The name is 25 characters long exactly when the year has four digits; a
      negative year adds a sign and a later one more digits. */
  lemma BakFileNameLength(t: DateTime)
    requires Valid(t)
    ensures |GetBakFileName(t)| == 25 <==> 0 <= t.year < 10000
  {
    DigitsLength(if t.year < 0 then -t.year else t.year, 4);
    PaddedIsFixed(t.month, 2);
    PaddedIsFixed(t.day, 2);
    PaddedIsFixed(t.hour, 2);
    PaddedIsFixed(t.minute, 2);
    PaddedIsFixed(t.second, 2);
  }

  lemma Slice6(a: string, b: string, c: string, d: string, e: string, f: string)
    ensures var s := a + b + c + d + e + f;
      && s[0..|a|] == a
      && s[|a|..|a| + |b|] == b
      && s[|a| + |b|..|a| + |b| + |c|] == c
      && s[|a| + |b| + |c|..|a| + |b| + |c| + |d|] == d
      && s[|a| + |b| + |c| + |d|..|a| + |b| + |c| + |d| + |e|] == e
      && s[|a| + |b| + |c| + |d| + |e|..] == f
  {
  }

  /** The stamp of a time whose year has at most four digits. */
  function FixedStamp(t: DateTime): string
    requires Valid(t) && 0 <= t.year
  {
    FixedDigits(t.year, 4) + FixedDigits(t.month, 2) + FixedDigits(t.day, 2)
    + FixedDigits(t.hour, 2) + FixedDigits(t.minute, 2) + FixedDigits(t.second, 2)
  }

  /** Reading a field back from a fixed-width numeral gives its value. */
  lemma FieldOfFixed(ds: string, i: nat, v: nat, w: nat)
    requires AllDigits(ds) && i + w <= |ds| && v < Pow10(w)
    requires ds[i..i + w] == FixedDigits(v, w)
    ensures Field(ds, i, i + w) == v
  {
    ValueOfFixed(v, w);
  }

  /** The fields of a stamp are the time it was made from. */
  lemma FieldsOfStamp(t: DateTime)
    requires Valid(t) && 0 <= t.year < 10000
    ensures |Stamp(t)| == 14 && AllDigits(Stamp(t)) && Fields(Stamp(t)) == t
  {
    StampFixed(t);
    var ds := FixedStamp(t);
    Slice6(FixedDigits(t.year, 4), FixedDigits(t.month, 2), FixedDigits(t.day, 2),
      FixedDigits(t.hour, 2), FixedDigits(t.minute, 2), FixedDigits(t.second, 2));
    FieldOfFixed(ds, 0, t.year, 4);
    FieldOfFixed(ds, 4, t.month, 2);
    FieldOfFixed(ds, 6, t.day, 2);
    FieldOfFixed(ds, 8, t.hour, 2);
    FieldOfFixed(ds, 10, t.minute, 2);
    FieldOfFixed(ds, 12, t.second, 2);
  }

  /** A stamp whose fields form a valid time is the stamp of that time. */
  lemma StampOfFields(ds: string)
    requires |ds| == 14 && AllDigits(ds) && Valid(Fields(ds))
    ensures Stamp(Fields(ds)) == ds
  {
    FixedStampOfFields(ds);
    StampFixed(Fields(ds));
  }

  lemma FixedStampOfFields(ds: string)
    requires |ds| == 14 && AllDigits(ds) && Valid(Fields(ds))
    ensures 0 <= Fields(ds).year < 10000
    ensures FixedStamp(Fields(ds)) == ds
  {
    FieldFixed(ds, 0, 4);
    FieldFixed(ds, 4, 6);
    FieldFixed(ds, 6, 8);
    FieldFixed(ds, 8, 10);
    FieldFixed(ds, 10, 12);
    FieldFixed(ds, 12, 14);
    assert Pow10(4) == 10000;
    assert ds == ds[0..4] + ds[4..6] + ds[6..8] + ds[8..10] + ds[10..12] + ds[12..14];
  }

  /** Reading a name back gives the time it was made from. */
  lemma BakFileNameRoundTrip(t: DateTime)
    requires Valid(t) && 0 <= t.year < 10000
    ensures ParseBakFileName(GetBakFileName(t)) == Some(t)
  {
    FieldsOfStamp(t);
    var s := GetBakFileName(t);
    assert s[4..18] == Stamp(t);
  }

  /** Every name that reads back as a valid time is the name of that time. */
  lemma BakFileNameOnto(s: string)
    requires ParseBakFileName(s).Some? && Valid(ParseBakFileName(s).value)
    ensures GetBakFileName(ParseBakFileName(s).value) == s
  {
    StampOfFields(s[4..18]);
    assert s == s[..4] + s[4..18] + s[18..];
  }
}

=== FILE: deletion.dfy ===
/** Deletion: `deleteKey` asks for confirmation, clears the default-identity slots when
    the key is the one in use, and removes the alias directory. The answer read from
    the terminal is a parameter. */
module Deletion {
  import opened Files
  import opened Layout
  import opened Activation

  /** `storePath/alias`, the directory `deleteKey` removes. */
  function AliasDir(alias: Name): Path {
    StorePath + [alias]
  }

  /** `inUse`: the key's private file is where `~/.ssh/id_rsa` leads. */
  predicate InUse(fs: FileSystem, key: SSHKey) {
    key.privateKey == ParsePath(fs, PrivateSlot)
  }

  /** Neither slot lies in an alias directory. */
  lemma SlotsOutsideAlias(alias: Name)
    ensures !IsPrefix(AliasDir(alias), PrivateSlot) && !IsPrefix(AliasDir(alias), PublicSlot)
  {
    SlotFacts();
    assert AliasDir(alias)[..|StorePath|] == StorePath;
  }

  /** `deleteKey(alias, key)` answered with `input`. Any answer but "y" changes nothing.
      On "y" exactly these entries go: everything at or below `storePath/alias`, and,
      when the key is in use, the slots `clearKey` removes. Nothing is ever rewritten.
      A failing `os.RemoveAll` only prints a message, and the model's `RemoveAll`
      cannot fail. */
  function DeleteKey(fs: FileSystem, alias: Name, key: SSHKey, input: string): (r: FileSystem)
    ensures input != "y" ==> r == fs
    ensures SubFileSystem(r, fs)
    ensures input == "y" ==> forall q :: q in r <==>
      && q in fs
      && !IsPrefix(AliasDir(alias), q)
      && !(InUse(fs, key) && (q == PrivateSlot || q == PublicSlot) && q !in ClearKey(fs))
  {
    SlotsOutsideAlias(alias);
    if input == "y" then
      RemoveAll(if InUse(fs, key) then ClearKey(fs) else fs, AliasDir(alias))
    else fs
  }

  /** A confirmed deletion of a key that is not in use leaves both slots alone, and one
      of a key in use leaves them as `clearKey` does. */
  lemma DeleteKeySlots(fs: FileSystem, alias: Name, key: SSHKey)
    ensures var r := DeleteKey(fs, alias, key, "y");
      && (!InUse(fs, key) ==> (PrivateSlot in r <==> PrivateSlot in fs) && (PublicSlot in r <==> PublicSlot in fs))
      && (InUse(fs, key) ==>
            (PrivateSlot in r <==> PrivateSlot in ClearKey(fs)) && (PublicSlot in r <==> PublicSlot in ClearKey(fs)))
  {
    SlotsOutsideAlias(alias);
    var r := DeleteKey(fs, alias, key, "y");
    if InUse(fs, key) {
      assert PrivateSlot in ClearKey(fs) ==> PrivateSlot in fs;
      assert PublicSlot in ClearKey(fs) ==> PublicSlot in fs;
    }
  }

  lemma DeleteKeyPreservesWellFormed(fs: FileSystem, alias: Name, key: SSHKey, input: string)
    requires WellFormed(fs)
    ensures WellFormed(DeleteKey(fs, alias, key, input))
  {
    if input == "y" {
      var s := if InUse(fs, key) then ClearKey(fs) else fs;
      ClearKeyPreservesWellFormed(fs);
      RemoveAllPreservesWellFormed(s, AliasDir(alias));
    }
  }

  // ---------------------------------------------------------------------------
  // Deciding "in use" by the listed default flag

  /** `deleteKey` with the slots cleared when the key is the one the listing marks as
      the default, instead of when its last private file is where `~/.ssh/id_rsa`
      leads. The two tests differ when an alias holds several private files. */
  function DeleteKeyByDefault(fs: FileSystem, alias: Name, key: SSHKey, input: string): (r: FileSystem)
    ensures input != "y" ==> r == fs
    ensures SubFileSystem(r, fs)
    ensures input == "y" ==> forall q :: q in r <==>
      && q in fs
      && !IsPrefix(AliasDir(alias), q)
      && !(key.isDefault && (q == PrivateSlot || q == PublicSlot) && q !in ClearKey(fs))
  {
    SlotsOutsideAlias(alias);
    if input == "y" then
      RemoveAll(if key.isDefault then ClearKey(fs) else fs, AliasDir(alias))
    else fs
  }
}

=== FILE: discovery.dfy ===
/** Discovery: `loadSingleKey` classifies the files under one alias directory, and
    `loadSSHKeys` walks the store and keeps every directory that yields a key. Both are
    folds over the walk; each is proved equal to a description that does not mention
    the walk order except through "the path visited last". */
module Discovery {
  import opened Lexicographic
  import opened Files
  import opened FileWalk
  import opened Layout

  /** `strings.Contains(s, sub)`: `sub` occurs in `s` at some position. */
  predicate Contains(s: string, sub: string)
    decreases |s|
  {
    |sub| <= |s| && (s[..|sub|] == sub || Contains(s[1..], sub))
  }

  /** A file whose name contains ".pub" is taken for a public key. */
  predicate IsPublicName(name: Name) {
    Contains(name, ".pub")
  }

  /** A string contains only strings that start with one of its characters. */
  lemma {:induction false} ContainsFirst(s: string, sub: string)
    requires |sub| > 0 && Contains(s, sub)
    ensures sub[0] in s
    decreases |s|
  {
    if s[..|sub|] != sub {
      ContainsFirst(s[1..], sub);
    } else {
      assert s[0] == sub[0];
    }
  }

  /** A string contains any string it ends with. */
  lemma {:induction false} ContainsSuffix(s: string, sub: string)
    ensures Contains(s + sub, sub)
    decreases |s|
  {
    if s != [] {
      assert (s + sub)[1..] == s[1..] + sub;
      ContainsSuffix(s[1..], sub);
    }
  }

  predicate AllIn(fs: FileSystem, ps: seq<Path>) {
    forall i :: 0 <= i < |ps| ==> ps[i] in fs
  }

  // ---------------------------------------------------------------------------
  // loadSingleKey

  /** The walk callback of `loadSingleKey` applied to one visited path. `resolved` is
      `parsePath(~/.ssh/id_rsa)`, which cannot change during the walk. */
  function VisitKeyEntry(fs: FileSystem, resolved: Path, root: Path, key: SSHKey, path: Path): SSHKey
    requires path in fs
  {
    if path == root then key
    else if fs[path].Dir? then key
    else if IsPublicName(Base(path)) then key.(publicKey := path)
    else key.(privateKey := path, isDefault := if path == resolved then true else key.isDefault)
  }

  /** The key record after the callback has seen every path of `ps`, in order. */
  function FoldKey(fs: FileSystem, resolved: Path, root: Path, ps: seq<Path>): SSHKey
    requires AllIn(fs, ps)
    decreases |ps|
  {
    if ps == [] then SSHKey([], [], false)
    else VisitKeyEntry(fs, resolved, root, FoldKey(fs, resolved, root, ps[..|ps| - 1]), ps[|ps| - 1])
  }

  /** The public-key files among the paths of `ps`. */
  function PublicIn(fs: FileSystem, root: Path, ps: seq<Path>): set<Path>
    requires AllIn(fs, ps)
  {
    set p | p in ps && p != root && !fs[p].Dir? && IsPublicName(Base(p))
  }

  /** The private-key files among the paths of `ps`: every other non-directory. */
  function PrivateIn(fs: FileSystem, root: Path, ps: seq<Path>): set<Path>
    requires AllIn(fs, ps)
  {
    set p | p in ps && p != root && !fs[p].Dir? && !IsPublicName(Base(p))
  }

  /** The public-key files a walk from `root` finds, at any depth. */
  function PublicFiles(fs: FileSystem, root: Path): set<Path> {
    set p | p in WalkSet(fs, root) && !fs[p].Dir? && IsPublicName(Base(p))
  }

  /** The private-key files a walk from `root` finds, at any depth. */
  function PrivateFiles(fs: FileSystem, root: Path): set<Path> {
    set p | p in WalkSet(fs, root) && !fs[p].Dir? && !IsPublicName(Base(p))
  }

  /** Appending one path to the walk adds at most that path to each kind. */
  lemma KindsSnoc(fs: FileSystem, root: Path, init: seq<Path>, last: Path)
    requires AllIn(fs, init) && last in fs
    ensures AllIn(fs, init + [last])
    ensures var pub := last != root && !fs[last].Dir? && IsPublicName(Base(last));
      PublicIn(fs, root, init + [last]) == PublicIn(fs, root, init) + (if pub then {last} else {})
    ensures var priv := last != root && !fs[last].Dir? && !IsPublicName(Base(last));
      PrivateIn(fs, root, init + [last]) == PrivateIn(fs, root, init) + (if priv then {last} else {})
  {
    var ps := init + [last];
    assert forall p :: p in ps <==> p in init || p == last;
  }

  /** In an increasing sequence the last element comes after every earlier one. */
  lemma LastIsGreatest(init: seq<Path>, last: Path)
    requires Increasing(init + [last])
    ensures forall p :: p in init ==> PathLt(p, last)
  {
    var ps := init + [last];
    forall p | p in init ensures PathLt(p, last) {
      var i :| 0 <= i < |init| && init[i] == p;
      assert ps[i] == p && ps[|init|] == last;
    }
  }

  /** The result of a fold is described without the fold: each path field holds the
      matching file visited last (or "" if there is none), and the default flag is set
      iff some private-key file is the resolved default identity. */
  lemma {:induction false} FoldKeySpec(fs: FileSystem, resolved: Path, root: Path, ps: seq<Path>)
    requires AllIn(fs, ps) && Increasing(ps)
    ensures var k := FoldKey(fs, resolved, root, ps);
      && (PublicIn(fs, root, ps) == {} ==> k.publicKey == [])
      && (PublicIn(fs, root, ps) != {} ==> IsGreatest(k.publicKey, PublicIn(fs, root, ps)))
      && (PrivateIn(fs, root, ps) == {} ==> k.privateKey == [])
      && (PrivateIn(fs, root, ps) != {} ==> IsGreatest(k.privateKey, PrivateIn(fs, root, ps)))
      && (k.isDefault <==> resolved in PrivateIn(fs, root, ps))
    decreases |ps|
  {
    if ps == [] {
      assert PublicIn(fs, root, ps) == {};
      assert PrivateIn(fs, root, ps) == {};
    } else {
      var init := ps[..|ps| - 1];
      var last := ps[|ps| - 1];
      assert ps == init + [last];
      FoldKeySpec(fs, resolved, root, init);
      KindsSnoc(fs, root, init, last);
      LastIsGreatest(init, last);
    }
  }

  /** `loadSingleKey(keyPath)`: `None` stands for the nil the source returns on a walk
      error or when either key file is missing. */
  function LoadSingleKey(fs: FileSystem, keyPath: Path): (r: Option<SSHKey>)
    ensures keyPath !in fs ==> r == None
    ensures r.Some? ==> r.value.publicKey != [] && r.value.privateKey != []
  {
    match Walk(fs, keyPath)
    case None => None
    case Some(ps) =>
      var key := FoldKey(fs, ParsePath(fs, PrivateSlot), keyPath, ps);
      if key.publicKey != [] && key.privateKey != [] then Some(key) else None
  }

  /** A key is loaded iff the walk finds both a public and a private key file; its
      path fields are the ones of each kind visited last, and it is the default iff
      some private key file it found is where `~/.ssh/id_rsa` leads. */
  lemma LoadSingleKeySpec(fs: FileSystem, keyPath: Path)
    ensures var r := LoadSingleKey(fs, keyPath);
      && (r.Some? <==> PublicFiles(fs, keyPath) != {} && PrivateFiles(fs, keyPath) != {})
      && (r.Some? ==> IsGreatest(r.value.publicKey, PublicFiles(fs, keyPath)))
      && (r.Some? ==> IsGreatest(r.value.privateKey, PrivateFiles(fs, keyPath)))
      && (r.Some? ==> (r.value.isDefault <==> ParsePath(fs, PrivateSlot) in PrivateFiles(fs, keyPath)))
  {
    WalkSpec(fs, keyPath);
    match Walk(fs, keyPath)
    case None =>
      assert WalkSet(fs, keyPath) == {};
    case Some(ps) =>
      FoldKeySpec(fs, ParsePath(fs, PrivateSlot), keyPath, ps);
      assert PublicIn(fs, keyPath, ps) == PublicFiles(fs, keyPath);
      assert PrivateIn(fs, keyPath, ps) == PrivateFiles(fs, keyPath);
  }

  // ---------------------------------------------------------------------------
  // loadSSHKeys

  /** How `loadSSHKeys` loads one candidate directory; always `LoadSingleKey` on the
      same filesystem, kept as a parameter so the fold's proof does not depend on it. */
  type Loader = Path -> Option<SSHKey>

  /** A directory strictly below the store that yields a key: the candidates of
      `loadSSHKeys`, nested ones included. */
  predicate Collects(fs: FileSystem, load: Loader, d: Path)
    requires d in fs
  {
    d != StorePath && fs[d].Dir? && load(d).Some?
  }

  /** The walk callback of `loadSSHKeys` applied to one visited path. */
  function VisitStoreEntry(fs: FileSystem, load: Loader, keys: map<Name, SSHKey>, path: Path): map<Name, SSHKey>
    requires path in fs
  {
    if path == StorePath then keys
    else if fs[path].Dir? then
      match load(path)
      case Some(k) => keys[Base(path) := k]
      case None => keys
    else keys
  }

  function CollectKeys(fs: FileSystem, load: Loader, ps: seq<Path>): map<Name, SSHKey>
    requires AllIn(fs, ps)
    decreases |ps|
  {
    if ps == [] then map[]
    else VisitStoreEntry(fs, load, CollectKeys(fs, load, ps[..|ps| - 1]), ps[|ps| - 1])
  }

  /** `d` is the key directory among `ps` named `n` that the walk visits last. */
  ghost predicate IsLastNamed(fs: FileSystem, load: Loader, ps: seq<Path>, n: Name, d: Path)
    requires AllIn(fs, ps)
  {
    && d in ps && Collects(fs, load, d) && Base(d) == n
    && forall d' :: d' in ps && Collects(fs, load, d') && Base(d') == n ==> d' == d || PathLt(d', d)
  }

  /** The names a fold collects: one per base name of a collected directory. */
  lemma {:induction false} CollectKeysDomain(fs: FileSystem, load: Loader, ps: seq<Path>)
    requires AllIn(fs, ps)
    ensures forall n :: n in CollectKeys(fs, load, ps) <==> exists d :: d in ps && Collects(fs, load, d) && Base(d) == n
    decreases |ps|
  {
    if ps != [] {
      var init := ps[..|ps| - 1];
      var last := ps[|ps| - 1];
      assert ps == init + [last];
      CollectKeysDomain(fs, load, init);
      var m0 := CollectKeys(fs, load, init);
      var m := CollectKeys(fs, load, ps);
      assert m == VisitStoreEntry(fs, load, m0, last);
      forall n ensures n in m <==> exists d :: d in ps && Collects(fs, load, d) && Base(d) == n {
        if Collects(fs, load, last) && Base(last) == n {
          assert last in ps;
        } else {
          assert n in m <==> n in m0;
          if exists d :: d in ps && Collects(fs, load, d) && Base(d) == n {
            var d :| d in ps && Collects(fs, load, d) && Base(d) == n;
            assert d in init;
          }
          if n in m0 {
            var d :| d in init && Collects(fs, load, d) && Base(d) == n;
            assert d in ps;
          }
        }
      }
    }
  }

  /** The key a fold keeps under a name comes from the directory with that name
      visited last. */
  lemma {:induction false} CollectKeysValues(fs: FileSystem, load: Loader, ps: seq<Path>)
    requires AllIn(fs, ps) && Increasing(ps)
    ensures forall n :: n in CollectKeys(fs, load, ps) ==>
      exists d :: IsLastNamed(fs, load, ps, n, d) && load(d) == Some(CollectKeys(fs, load, ps)[n])
    decreases |ps|
  {
    if ps != [] {
      var init := ps[..|ps| - 1];
      var last := ps[|ps| - 1];
      assert ps == init + [last];
      CollectKeysValues(fs, load, init);
      LastIsGreatest(init, last);
      var m0 := CollectKeys(fs, load, init);
      var m := CollectKeys(fs, load, ps);
      assert m == VisitStoreEntry(fs, load, m0, last);
      forall n | n in m
        ensures exists d :: IsLastNamed(fs, load, ps, n, d) && load(d) == Some(m[n])
      {
        if Collects(fs, load, last) && Base(last) == n {
          assert IsLastNamed(fs, load, ps, n, last);
        } else {
          assert n in m0 && m[n] == m0[n];
          var d :| IsLastNamed(fs, load, init, n, d) && load(d) == Some(m0[n]);
          forall d' | d' in ps && Collects(fs, load, d') && Base(d') == n ensures d' == d || PathLt(d', d) {
            assert d' in init;
          }
          assert IsLastNamed(fs, load, ps, n, d);
        }
      }
    }
  }

  /** `loadSSHKeys`. A missing store is the walk error, and nothing was collected
      before it. */
  function LoadSSHKeys(fs: FileSystem): (r: map<Name, SSHKey>)
    ensures StorePath !in fs ==> r == map[]
  {
    match Walk(fs, StorePath)
    case None => map[]
    case Some(ps) => CollectKeys(fs, d => LoadSingleKey(fs, d), ps)
  }

  /** The directories whose keys `loadSSHKeys` may report. */
  function KeyDirs(fs: FileSystem): set<Path> {
    set d | d in WalkSet(fs, StorePath) && fs[d].Dir? && LoadSingleKey(fs, d).Some?
  }

  /** `d` is the key directory named `n` visited last, whose key wins the name. */
  ghost predicate IsWinner(fs: FileSystem, n: Name, d: Path) {
    && d in KeyDirs(fs) && Base(d) == n
    && forall d' :: d' in KeyDirs(fs) && Base(d') == n ==> d' == d || PathLt(d', d)
  }

  /** The aliases `loadSSHKeys` reports are exactly the base names of the key
      directories found below the store; a name shared by several directories gets the
      key of the one visited last. Without a store there are none. */
  lemma LoadSSHKeysSpec(fs: FileSystem)
    ensures StorePath !in fs ==> LoadSSHKeys(fs) == map[]
    ensures forall n :: n in LoadSSHKeys(fs) <==> exists d :: d in KeyDirs(fs) && Base(d) == n
    ensures forall n :: n in LoadSSHKeys(fs) ==>
      exists d :: IsWinner(fs, n, d) && LoadSingleKey(fs, d) == Some(LoadSSHKeys(fs)[n])
  {
    WalkSpec(fs, StorePath);
    match Walk(fs, StorePath)
    case None =>
      assert KeyDirs(fs) == {};
    case Some(ps) =>
      var load: Loader := d => LoadSingleKey(fs, d);
      CollectKeysDomain(fs, load, ps);
      CollectKeysValues(fs, load, ps);
      assert StorePath !in WalkSet(fs, StorePath);
      forall d ensures d in KeyDirs(fs) <==> d in ps && Collects(fs, load, d) {
      }
      var m := LoadSSHKeys(fs);
      forall n | n in m ensures exists d :: IsWinner(fs, n, d) && LoadSingleKey(fs, d) == Some(m[n]) {
        var d :| IsLastNamed(fs, load, ps, n, d) && load(d) == Some(m[n]);
        assert IsWinner(fs, n, d);
      }
  }

  /** Every discovered key lies in the store, below the directory it was found in. */
  lemma DiscoveredKeysLieInStore(fs: FileSystem, n: Name)
    requires n in LoadSSHKeys(fs)
    ensures IsPrefix(StorePath, LoadSSHKeys(fs)[n].privateKey)
    ensures IsPrefix(StorePath, LoadSSHKeys(fs)[n].publicKey)
    ensures |LoadSSHKeys(fs)[n].privateKey| > |StorePath| + 1
    ensures |LoadSSHKeys(fs)[n].publicKey| > |StorePath| + 1
  {
    var keys := LoadSSHKeys(fs);
    LoadSSHKeysSpec(fs);
    var d :| IsWinner(fs, n, d) && LoadSingleKey(fs, d) == Some(keys[n]);
    assert Below(fs, StorePath, d);
    LoadSingleKeySpec(fs, d);
    InsideKeyDir(fs, d, keys[n].privateKey);
    InsideKeyDir(fs, d, keys[n].publicKey);
  }

  lemma InsideKeyDir(fs: FileSystem, d: Path, p: Path)
    requires Below(fs, StorePath, d) && p in WalkSet(fs, d)
    ensures IsPrefix(StorePath, p) && |p| > |StorePath| + 1
  {
    assert Below(fs, d, p);
    assert p[..|StorePath|] == p[..|d|][..|StorePath|];
  }

  /** The store holds no directory below an alias directory: the layout `skm` creates.
      The walks above do descend into such directories. */
  ghost predicate FlatStore(fs: FileSystem) {
    forall d :: d in WalkSet(fs, StorePath) && fs[d].Dir? ==> |d| == |StorePath| + 1
  }

  /** In a flat store at most one discovered key is the default one: a key is the
      default only if `~/.ssh/id_rsa` leads into its own directory. */
  lemma AtMostOneDefault(fs: FileSystem, n1: Name, n2: Name)
    requires FlatStore(fs)
    requires n1 in LoadSSHKeys(fs) && LoadSSHKeys(fs)[n1].isDefault
    requires n2 in LoadSSHKeys(fs) && LoadSSHKeys(fs)[n2].isDefault
    ensures n1 == n2
  {
    var keys := LoadSSHKeys(fs);
    var target := ParsePath(fs, PrivateSlot);
    LoadSSHKeysSpec(fs);
    var d1 :| IsWinner(fs, n1, d1) && LoadSingleKey(fs, d1) == Some(keys[n1]);
    var d2 :| IsWinner(fs, n2, d2) && LoadSingleKey(fs, d2) == Some(keys[n2]);
    LoadSingleKeySpec(fs, d1);
    LoadSingleKeySpec(fs, d2);
    assert Below(fs, d1, target) && Below(fs, d2, target);
    assert |d1| == |d2|;
    assert d1 == target[..|d1|] == d2;
  }
}

=== FILE: files.dfy ===
/** An abstract filesystem: a finite map from absolute paths to entries, and the few
    `os` calls the key store makes on it (`Lstat`, `Stat`, `Remove`, `RemoveAll`,
    `Symlink`), each with the outcome Go's `os` package gives on Linux. */
module Files {

  /** One path component, as `filepath.Base` returns it. */
  type Name = string

  /** An absolute path, as its list of components. The root directory is implicit and is
      never an entry, so the empty path names nothing; it also stands for Go's empty
      string wherever a path-valued result is "". */
  type Path = seq<Name>

  datatype Entry = File | Dir | Symlink(target: Path)

  type FileSystem = map<Path, Entry>

  datatype Option<T> = None | Some(value: T)

  function Parent(p: Path): Path
    requires |p| > 0
  {
    p[..|p| - 1]
  }

  /** `filepath.Base`: the last component (Go gives "." for the empty path). */
  function Base(p: Path): Name {
    if |p| == 0 then "." else p[|p| - 1]
  }

  predicate IsPrefix(p: Path, q: Path) {
    |p| <= |q| && q[..|p|] == p
  }

  /** The directory that would hold `p` exists: the root, or a `Dir` entry. */
  predicate ParentIsDir(fs: FileSystem, p: Path) {
    |p| == 1 || (|p| > 1 && Parent(p) in fs && fs[Parent(p)].Dir?)
  }

  /** What any filesystem guarantees: every entry sits in an existing directory. */
  ghost predicate WellFormed(fs: FileSystem) {
    [] !in fs && forall p :: p in fs ==> ParentIsDir(fs, p)
  }

  /** `p` has at least one entry directly inside it. */
  predicate HasChildren(fs: FileSystem, p: Path) {
    exists q :: q in fs && |q| == |p| + 1 && q[..|p|] == p
  }

  /** Every entry of `small` is an entry of `big`, unchanged. */
  ghost predicate SubFileSystem(small: FileSystem, big: FileSystem) {
    forall q :: q in small ==> q in big && small[q] == big[q]
  }

  /** `r` and `fs` hold the same entries everywhere except possibly at `a` and `b`. */
  ghost predicate AgreeExcept(fs: FileSystem, r: FileSystem, a: Path, b: Path) {
    forall q :: q != a && q != b ==> (q in r <==> q in fs) && (q in r ==> r[q] == fs[q])
  }

  // ---------------------------------------------------------------------------
  // os.Stat: follows symbolic links

  /** The three outcomes of `os.Stat` the model distinguishes. Only `NotExist`
      satisfies `os.IsNotExist`; a symlink chain longer than the kernel's limit gives
      ELOOP, which does not. */
  datatype StatResult = Exists | NotExist | TooManyLinks

  /** The kernel follows at most 40 symbolic links while resolving one path. */
  const MaxSymlinkHops: nat := 40

  function StatHops(fs: FileSystem, p: Path, hops: nat): StatResult
    decreases hops
  {
    if p !in fs then NotExist
    else match fs[p]
      case Symlink(t) => if hops == 0 then TooManyLinks else StatHops(fs, t, hops - 1)
      case _ => Exists
  }

  /** `os.Stat`: a link is followed to its target, so a link whose target is missing
      reads as missing, exactly like an empty slot. */
  function Stat(fs: FileSystem, p: Path): (r: StatResult)
    ensures p !in fs ==> r == NotExist
    ensures p in fs && !fs[p].Symlink? ==> r == Exists
    ensures p in fs && fs[p].Symlink? && fs[p].target !in fs ==> r == NotExist
    ensures p in fs && fs[p].Symlink? && fs[p].target in fs && !fs[fs[p].target].Symlink? ==> r == Exists
    ensures r == TooManyLinks ==> p in fs && fs[p].Symlink?
  {
    StatHops(fs, p, MaxSymlinkHops)
  }

  /** A link to itself never resolves: following it uses up every hop. */
  lemma {:induction false} SelfLinkHops(fs: FileSystem, p: Path, hops: nat)
    requires p in fs && fs[p] == Symlink(p)
    ensures StatHops(fs, p, hops) == TooManyLinks
    decreases hops
  {
    if hops > 0 {
      SelfLinkHops(fs, p, hops - 1);
    }
  }

  /** `Stat` of a link to itself is ELOOP, not "not exist". */
  lemma SelfLinkLoops(fs: FileSystem, p: Path)
    requires p in fs && fs[p] == Symlink(p)
    ensures Stat(fs, p) == TooManyLinks
  {
    SelfLinkHops(fs, p, MaxSymlinkHops);
  }

  /** Removing entries never brings a missing target back: a path that `Stat` reports
      missing stays missing in any smaller filesystem. */
  lemma {:induction false} StatNotExistShrinks(small: FileSystem, big: FileSystem, p: Path, hops: nat)
    requires SubFileSystem(small, big)
    requires StatHops(big, p, hops) == NotExist
    ensures StatHops(small, p, hops) == NotExist
    decreases hops
  {
    if p in small {
      assert big[p] == small[p];
      if small[p].Symlink? && hops > 0 {
        StatNotExistShrinks(small, big, small[p].target, hops - 1);
      }
    }
  }

  // ---------------------------------------------------------------------------
  // os.Remove, os.RemoveAll, os.Symlink

  /** `os.Remove`: unlinks a file or symlink (never its target) or removes an empty
      directory; a missing path or a non-empty directory is an error and changes
      nothing. */
  function Remove(fs: FileSystem, p: Path): (r: FileSystem)
    ensures AgreeExcept(fs, r, p, p)
    ensures p in r <==> p in fs && fs[p].Dir? && HasChildren(fs, p)
    ensures p in r ==> r[p] == fs[p]
  {
    if p in fs && !(fs[p].Dir? && HasChildren(fs, p)) then fs - {p} else fs
  }

  /** `os.RemoveAll`: removes `p` and everything below it; a missing path is not an
      error. */
  function RemoveAll(fs: FileSystem, p: Path): (r: FileSystem)
    ensures forall q :: q in r <==> q in fs && !IsPrefix(p, q)
    ensures forall q :: q in r ==> r[q] == fs[q]
  {
    map q | q in fs && !IsPrefix(p, q) :: fs[q]
  }

  /** `os.Symlink(target, link)`: fails, changing nothing, when `link` already exists
      (even as a dangling link) or its directory does not exist. The target is not
      checked. */
  function MakeSymlink(fs: FileSystem, target: Path, link: Path): (r: FileSystem)
    ensures AgreeExcept(fs, r, link, link)
    ensures link in r <==> link in fs || ParentIsDir(fs, link)
    ensures link in fs ==> r[link] == fs[link]
    ensures link !in fs && ParentIsDir(fs, link) ==> r[link] == Symlink(target)
  {
    if link in fs || !ParentIsDir(fs, link) then fs else fs[link := Symlink(target)]
  }

  lemma RemovePreservesWellFormed(fs: FileSystem, p: Path)
    requires WellFormed(fs)
    ensures WellFormed(Remove(fs, p))
  {
    var r := Remove(fs, p);
    forall q | q in r ensures ParentIsDir(r, q) {
      assert ParentIsDir(fs, q);
      if |q| > 1 && Parent(q) == p {
        assert q[..|p|] == p;
        assert HasChildren(fs, p);
      }
    }
  }

  lemma RemoveAllPreservesWellFormed(fs: FileSystem, p: Path)
    requires WellFormed(fs)
    ensures WellFormed(RemoveAll(fs, p))
  {
    var r := RemoveAll(fs, p);
    forall q | q in r ensures ParentIsDir(r, q) {
      assert ParentIsDir(fs, q);
    }
  }

  lemma MakeSymlinkPreservesWellFormed(fs: FileSystem, target: Path, link: Path)
    requires WellFormed(fs)
    ensures WellFormed(MakeSymlink(fs, target, link))
  {
    var r := MakeSymlink(fs, target, link);
    forall q | q in r ensures ParentIsDir(r, q) {
      assert ParentIsDir(fs, q);
    }
  }
}

=== FILE: layout.dfy ===
/** The fixed places the key store works with, the key record, and the path resolver
    (`parsePath`) that tells which stored key the default identity points at. */
module Layout {
  import opened Files

  /** `$HOME`. The model fixes it once. No lemma's statement depends on its value, but
      some proofs compare path components by position and so rely on its two components. */
  const Home: Path := ["home", "user"]

  /** `storePath`, `~/.skm`: one directory per alias. */
  const StorePath: Path := Home + [".skm"]

  /** `sshPath`, `~/.ssh`: where the SSH client looks for the default identity. */
  const SshPath: Path := Home + [".ssh"]

  const PrivateKeyName: Name := "id_rsa"
  const PublicKeyName: Name := "id_rsa.pub"

  /** The two default-identity slots, `~/.ssh/id_rsa` and `~/.ssh/id_rsa.pub`. */
  const PrivateSlot: Path := SshPath + [PrivateKeyName]
  const PublicSlot: Path := SshPath + [PublicKeyName]

  /** A discovered key pair. A path field that was never set is `[]` (Go's ""). */
  datatype SSHKey = SSHKey(privateKey: Path, publicKey: Path, isDefault: bool)

  /** The slots are distinct, live in `~/.ssh`, and lie outside the store. */
  lemma SlotFacts()
    ensures PrivateSlot != PublicSlot
    ensures |PrivateSlot| == |PublicSlot| == |StorePath| + 1
    ensures Parent(PrivateSlot) == SshPath && Parent(PublicSlot) == SshPath
    ensures !IsPrefix(StorePath, PrivateSlot) && !IsPrefix(StorePath, PublicSlot)
    ensures !IsPrefix(PrivateSlot, PublicSlot) && !IsPrefix(PublicSlot, PrivateSlot)
  {
    assert PrivateSlot[..|StorePath|] == SshPath;
    assert PublicSlot[..|StorePath|] == SshPath;
    assert StorePath[2] != SshPath[2];
  }

  /** `parsePath`: where the entry at `p` leads, read with `Lstat` (a link is not
      followed further). A missing entry gives "" and a symbolic link gives its
      target; anything else gives `p` itself. `Readlink` cannot fail on a link of the
      model, so the source's exit on that failure is unreachable here. */
  function ParsePath(fs: FileSystem, p: Path): (r: Path)
    ensures p !in fs ==> r == []
    ensures p in fs && fs[p].Symlink? ==> r == fs[p].target
    ensures p in fs && !fs[p].Symlink? ==> r == p
  {
    if p !in fs then []
    else match fs[p]
      case Symlink(t) => t
      case _ => p
  }

  /** Reading back a link the model just created gives the target it was given, and
      reading a path that was just removed gives "". */
  lemma ParsePathReadsBack(fs: FileSystem, target: Path, link: Path)
    requires link !in fs && ParentIsDir(fs, link)
    ensures ParsePath(MakeSymlink(fs, target, link), link) == target
    ensures ParsePath(fs, link) == []
  {
  }
}

=== FILE: lexicographic.dfy ===
/** Lexicographic order on sequences, lifted from a strict order on their elements.
    Strings are ordered by it (char by char), and so are paths (component by component),
    which is the order in which `filepath.Walk` visits a directory tree. */
module Lexicographic {

  /** `a` comes strictly before `b`: either `a` is a proper prefix of `b`, or the first
      position where they differ holds a smaller element in `a`. */
  function SeqLt<T(==)>(a: seq<T>, b: seq<T>, lt: (T, T) -> bool): bool
    decreases |a|
  {
    if |a| == 0 then |b| > 0
    else |b| > 0 && (lt(a[0], b[0]) || (a[0] == b[0] && SeqLt(a[1..], b[1..], lt)))
  }

  ghost predicate Irreflexive<T(!new)>(lt: (T, T) -> bool) {
    forall x :: !lt(x, x)
  }

  ghost predicate Transitive<T(!new)>(lt: (T, T) -> bool) {
    forall x, y, z :: lt(x, y) && lt(y, z) ==> lt(x, z)
  }

  ghost predicate Trichotomous<T(!new)>(lt: (T, T) -> bool) {
    forall x, y :: x == y || lt(x, y) || lt(y, x)
  }

  ghost predicate StrictTotalOrder<T(!new)>(lt: (T, T) -> bool) {
    Irreflexive(lt) && Transitive(lt) && Trichotomous(lt)
  }

  lemma {:induction false} SeqLtIrreflexive<T(!new)>(a: seq<T>, lt: (T, T) -> bool)
    requires Irreflexive(lt)
    ensures !SeqLt(a, a, lt)
    decreases |a|
  {
    if |a| > 0 {
      SeqLtIrreflexive(a[1..], lt);
    }
  }

  lemma {:induction false} SeqLtTransitive<T(!new)>(a: seq<T>, b: seq<T>, c: seq<T>, lt: (T, T) -> bool)
    requires Transitive(lt)
    requires SeqLt(a, b, lt) && SeqLt(b, c, lt)
    ensures SeqLt(a, c, lt)
    decreases |a|
  {
    if |a| > 0 && a[0] == b[0] && b[0] == c[0] && !lt(a[0], c[0]) {
      SeqLtTransitive(a[1..], b[1..], c[1..], lt);
    }
  }

  lemma {:induction false} SeqLtTrichotomous<T(!new)>(a: seq<T>, b: seq<T>, lt: (T, T) -> bool)
    requires Trichotomous(lt)
    ensures a == b || SeqLt(a, b, lt) || SeqLt(b, a, lt)
    decreases |a|
  {
    if |a| > 0 && |b| > 0 && a[0] == b[0] {
      SeqLtTrichotomous(a[1..], b[1..], lt);
      if a[1..] == b[1..] {
        assert a == [a[0]] + a[1..];
        assert b == [b[0]] + b[1..];
      }
    }
  }

  /** The lifted order is again a strict total order. */
  lemma SeqLtStrictTotal<T(!new)>(lt: (T, T) -> bool)
    requires StrictTotalOrder(lt)
    ensures forall a: seq<T> :: !SeqLt(a, a, lt)
    ensures forall a: seq<T>, b: seq<T>, c: seq<T> :: SeqLt(a, b, lt) && SeqLt(b, c, lt) ==> SeqLt(a, c, lt)
    ensures forall a: seq<T>, b: seq<T> :: a == b || SeqLt(a, b, lt) || SeqLt(b, a, lt)
  {
    forall a: seq<T> ensures !SeqLt(a, a, lt) {
      SeqLtIrreflexive(a, lt);
    }
    forall a: seq<T>, b: seq<T>, c: seq<T> | SeqLt(a, b, lt) && SeqLt(b, c, lt)
      ensures SeqLt(a, c, lt)
    {
      SeqLtTransitive(a, b, c, lt);
    }
    forall a: seq<T>, b: seq<T> ensures a == b || SeqLt(a, b, lt) || SeqLt(b, a, lt) {
      SeqLtTrichotomous(a, b, lt);
    }
  }

  /** A proper prefix comes first. */
  lemma {:induction false} PrefixPrecedes<T>(a: seq<T>, b: seq<T>, lt: (T, T) -> bool)
    requires |a| < |b| && b[..|a|] == a
    ensures SeqLt(a, b, lt)
    decreases |a|
  {
    if |a| > 0 {
      assert a[0] == b[0];
      assert b[1..][..|a[1..]|] == a[1..];
      PrefixPrecedes(a[1..], b[1..], lt);
    }
  }

  /** Behind a common prefix, the order is decided by the next element. */
  lemma {:induction false} CommonPrefixThenLt<T>(p: seq<T>, x: T, y: T, lt: (T, T) -> bool)
    requires lt(x, y)
    ensures SeqLt(p + [x], p + [y], lt)
    decreases |p|
  {
    if |p| > 0 {
      assert (p + [x])[1..] == p[1..] + [x];
      assert (p + [y])[1..] == p[1..] + [y];
      CommonPrefixThenLt(p[1..], x, y, lt);
    }
  }

  predicate CharLt(x: char, y: char) {
    x < y
  }

  /** Byte-wise string order, as Go's `sort.Strings` uses (code-point order equals
      UTF-8 byte order). */
  predicate StrLt(a: string, b: string) {
    SeqLt(a, b, CharLt)
  }

  lemma StrLtStrictTotal()
    ensures StrictTotalOrder(StrLt)
  {
    assert StrictTotalOrder(CharLt);
    SeqLtStrictTotal(CharLt);
  }
}

=== FILE: lifecycle.dfy ===
/** What a user of `skm` sees across operations: which key the listing marks as the
    default after `use`, and what is left of a key after `delete`. Each lemma relates
    an activation or deletion step to the discovery that follows it. */
module Lifecycle {
  import opened Files
  import opened FileWalk
  import opened Layout
  import opened Discovery
  import opened Activation
  import opened Deletion
  import opened Lexicographic

  /** Removing entries keeps a store flat. */
  lemma FlatStoreShrinks(small: FileSystem, big: FileSystem)
    requires SubFileSystem(small, big) && FlatStore(big)
    ensures FlatStore(small)
  {
    forall d | d in WalkSet(small, StorePath) && small[d].Dir? ensures |d| == |StorePath| + 1 {
      assert Below(big, StorePath, d);
    }
  }

  /** A step that changes only the slots changes nothing in the store: the store's
      walk is the same and a flat store stays flat. */
  lemma SlotsOnlyKeepStore(fs: FileSystem, r: FileSystem)
    requires AgreeExcept(fs, r, PrivateSlot, PublicSlot)
    ensures WalkSet(r, StorePath) == WalkSet(fs, StorePath)
    ensures FlatStore(fs) ==> FlatStore(r)
  {
    SlotFacts();
    WalkSetFrame(fs, r, StorePath);
    forall d | d in WalkSet(r, StorePath) && r[d].Dir? && FlatStore(fs) ensures |d| == |StorePath| + 1 {
      assert IsPrefix(StorePath, d);
    }
  }

  /** In a flat store the key listed as `n` comes from the directory `storePath/n`. */
  lemma FlatWinner(fs: FileSystem, n: Name) returns (d: Path)
    requires FlatStore(fs) && n in LoadSSHKeys(fs)
    ensures d == AliasDir(n) && d in KeyDirs(fs)
    ensures LoadSingleKey(fs, d) == Some(LoadSSHKeys(fs)[n])
  {
    var keys := LoadSSHKeys(fs);
    LoadSSHKeysSpec(fs);
    d :| IsWinner(fs, n, d) && LoadSingleKey(fs, d) == Some(keys[n]);
    assert d in WalkSet(fs, StorePath) && fs[d].Dir?;
    FlatDir(fs, d);
  }

  lemma FlatDir(fs: FileSystem, d: Path)
    requires FlatStore(fs) && d in WalkSet(fs, StorePath) && fs[d].Dir?
    ensures d == AliasDir(Base(d))
  {
    assert |d| == |StorePath| + 1 && d[..|StorePath|] == StorePath;
  }

  /** Once `~/.ssh/id_rsa` leads to `alias`'s `id_rsa`, the listing marks no other
      alias as the default, in any store: the target lies below exactly one directory
      of the store, `storePath/alias`. In a flat store it also marks `alias` as the
      default whenever it is listed and its directory holds an `id_rsa` file; in a
      nested store a deeper directory named `alias` can take over that listing. */
  lemma LinkedAliasIsTheDefault(fs: FileSystem, alias: Name, n: Name)
    requires ParsePath(fs, PrivateSlot) == LinkTarget(alias, PrivateKeyName)
    ensures var keys := LoadSSHKeys(fs);
      n in keys && keys[n].isDefault ==> n == alias
    ensures var keys := LoadSSHKeys(fs); var target := LinkTarget(alias, PrivateKeyName);
      FlatStore(fs) && n == alias && n in keys && target in fs && fs[target].File? ==> keys[n].isDefault
  {
    var keys := LoadSSHKeys(fs);
    OnlyLinkedAliasIsDefault(fs, alias, n);
    if n in keys && FlatStore(fs) {
      var d := FlatWinner(fs, n);
      LoadedDefault(fs, d, keys[n]);
      DefaultOfAliasDir(fs, n, keys[n], alias);
    }
  }

  /** The first half of `LinkedAliasIsTheDefault`, for any store. */
  lemma OnlyLinkedAliasIsDefault(fs: FileSystem, alias: Name, n: Name)
    requires ParsePath(fs, PrivateSlot) == LinkTarget(alias, PrivateKeyName)
    ensures var keys := LoadSSHKeys(fs);
      n in keys && keys[n].isDefault ==> n == alias
  {
    var keys := LoadSSHKeys(fs);
    if n in keys && keys[n].isDefault {
      LoadSSHKeysSpec(fs);
      var d :| IsWinner(fs, n, d) && LoadSingleKey(fs, d) == Some(keys[n]);
      LoadedDefault(fs, d, keys[n]);
      DefaultDirIsAlias(fs, d, alias);
    }
  }

  /** A directory of the store with `alias`'s `id_rsa` among its private key files is
      `storePath/alias` itself. */
  lemma DefaultDirIsAlias(fs: FileSystem, d: Path, alias: Name)
    requires d in WalkSet(fs, StorePath)
    requires LinkTarget(alias, PrivateKeyName) in PrivateFiles(fs, d)
    ensures d == AliasDir(alias) && Base(d) == alias
  {
    var target := LinkTarget(alias, PrivateKeyName);
    InKeyDir(fs, d, target);
    assert |StorePath| < |d| < |target| && d[..|StorePath|] == StorePath;
    assert d == target[..|d|] && |d| == |StorePath| + 1;
    assert d == target[..|StorePath| + 1];
  }

  /** After `use alias` has freed `~/.ssh/id_rsa` and linked it, the listing marks no
      other alias as the default; in a flat store it marks `alias` as the default
      whenever it is listed and its directory holds an `id_rsa` file. */
  lemma ActivationMakesAliasTheDefault(fs: FileSystem, alias: Name, n: Name)
    requires PrivateSlot !in ClearKey(fs) && ParentIsDir(fs, PrivateSlot)
    ensures var keys := LoadSSHKeys(CreateLink(fs, alias));
      n in keys && keys[n].isDefault ==> n == alias
    ensures var r := CreateLink(fs, alias); var keys := LoadSSHKeys(r);
      var target := LinkTarget(alias, PrivateKeyName);
      FlatStore(fs) && n == alias && n in keys && target in r && r[target].File? ==> keys[n].isDefault
  {
    var r := CreateLink(fs, alias);
    CreateLinkSpec(fs, alias);
    SlotsOnlyKeepStore(fs, r);
    LinkedAliasIsTheDefault(r, alias, n);
  }

  /** With the corrected clearing step the same holds after every activation, unless a
      slot is a non-empty directory or `~/.ssh` is missing: no other alias is the
      default, and in a flat store `alias` is. */
  lemma ActivationLstatMakesAliasTheDefault(fs: FileSystem, alias: Name, n: Name)
    requires ParentIsDir(fs, PrivateSlot)
    requires !(PrivateSlot in fs && fs[PrivateSlot].Dir? && HasChildren(fs, PrivateSlot))
    requires !(PublicSlot in fs && fs[PublicSlot].Dir? && HasChildren(fs, PublicSlot))
    ensures var keys := LoadSSHKeys(CreateLinkLstat(fs, alias));
      n in keys && keys[n].isDefault ==> n == alias
    ensures var r := CreateLinkLstat(fs, alias); var keys := LoadSSHKeys(r);
      var target := LinkTarget(alias, PrivateKeyName);
      FlatStore(fs) && n == alias && n in keys && target in r && r[target].File? ==> keys[n].isDefault
  {
    var r := CreateLinkLstat(fs, alias);
    CreateLinkLstatActivates(fs, alias);
    SlotsOnlyKeepStore(fs, r);
    LinkedAliasIsTheDefault(r, alias, n);
  }

  /** A key loaded from `storePath/n` whose default flag tells whether the `id_rsa`
      file of `alias` is among its private key files is the default exactly when `n`
      is `alias` and that file exists. */
  lemma DefaultOfAliasDir(fs: FileSystem, n: Name, key: SSHKey, alias: Name)
    requires AliasDir(n) in fs && fs[AliasDir(n)].Dir?
    requires key.isDefault <==> LinkTarget(alias, PrivateKeyName) in PrivateFiles(fs, AliasDir(n))
    ensures key.isDefault ==> n == alias
    ensures var target := LinkTarget(alias, PrivateKeyName);
      n == alias && target in fs && fs[target].File? ==> key.isDefault
  {
    var d := AliasDir(n);
    var target := LinkTarget(alias, PrivateKeyName);
    if key.isDefault {
      InKeyDir(fs, d, target);
      assert target[..|d|][|StorePath|] == alias;
    }
    if n == alias && target in fs && fs[target].File? {
      KeyFileInDir(fs, alias);
    }
  }

  /** The default flag of a loaded key, as `LoadSingleKeySpec` describes it. */
  lemma LoadedDefault(fs: FileSystem, d: Path, key: SSHKey)
    requires LoadSingleKey(fs, d) == Some(key)
    ensures key.isDefault <==> ParsePath(fs, PrivateSlot) in PrivateFiles(fs, d)
  {
    LoadSingleKeySpec(fs, d);
  }

  lemma InKeyDir(fs: FileSystem, d: Path, target: Path)
    requires target in WalkSet(fs, d)
    ensures target[..|d|] == d
  {
  }

  /** The `id_rsa` file of an alias directory is a private key file of it. */
  lemma KeyFileInDir(fs: FileSystem, alias: Name)
    requires AliasDir(alias) in fs && fs[AliasDir(alias)].Dir?
    requires LinkTarget(alias, PrivateKeyName) in fs && fs[LinkTarget(alias, PrivateKeyName)].File?
    ensures LinkTarget(alias, PrivateKeyName) in PrivateFiles(fs, AliasDir(alias))
  {
    var d := AliasDir(alias);
    var target := LinkTarget(alias, PrivateKeyName);
    assert target[..|d|] == d;
    assert Below(fs, d, target);
    assert !IsPublicName(Base(target)) by {
      assert Base(target) == "id_rsa";
      if Contains("id_rsa", ".pub") {
        ContainsFirst("id_rsa", ".pub");
        assert false;
      }
    }
  }

  /** `delete alias` removes the alias from the listing of a flat store. */
  lemma DeletedAliasNotDiscovered(fs: FileSystem, alias: Name, key: SSHKey)
    requires FlatStore(fs)
    ensures alias !in LoadSSHKeys(DeleteKey(fs, alias, key, "y"))
  {
    var r := DeleteKey(fs, alias, key, "y");
    FlatStoreShrinks(r, fs);
    if alias in LoadSSHKeys(r) {
      var d := FlatWinner(r, alias);
      assert d == AliasDir(alias) && IsPrefix(AliasDir(alias), d);
      assert false;
    }
  }

  /** Without `~/.ssh/id_rsa` no listed key is the default. */
  lemma NoSlotNoDefault(fs: FileSystem)
    requires PrivateSlot !in fs
    ensures var keys := LoadSSHKeys(fs);
      forall n :: n in keys ==> !keys[n].isDefault
  {
    var keys := LoadSSHKeys(fs);
    LoadSSHKeysSpec(fs);
    forall n | n in keys ensures !keys[n].isDefault {
      var d :| IsWinner(fs, n, d) && LoadSingleKey(fs, d) == Some(keys[n]);
      LoadSingleKeySpec(fs, d);
    }
  }

  /** Deleting the key in use, when `~/.ssh/id_rsa` is a link to an existing file,
      leaves no default identity: the slot is gone and no listed key is the default. */
  lemma DeletingActiveKeyLeavesNoDefault(fs: FileSystem, alias: Name, key: SSHKey)
    requires InUse(fs, key)
    requires PrivateSlot in fs && fs[PrivateSlot].Symlink? && Stat(fs, PrivateSlot) == Exists
    ensures ParsePath(DeleteKey(fs, alias, key, "y"), PrivateSlot) == []
    ensures var keys := LoadSSHKeys(DeleteKey(fs, alias, key, "y"));
      forall n :: n in keys ==> !keys[n].isDefault
  {
    var r := DeleteKey(fs, alias, key, "y");
    assert PrivateSlot !in ClearKey(fs);
    assert PrivateSlot !in r;
    NoSlotNoDefault(r);
  }

  /** With the slots cleared by the listed default flag, deleting the key the listing
      shows as the default, when `~/.ssh/id_rsa` is a link to an existing file, leaves
      no default identity. */
  lemma DeletingListedDefaultLeavesNoDefault(fs: FileSystem, alias: Name)
    requires alias in LoadSSHKeys(fs) && LoadSSHKeys(fs)[alias].isDefault
    requires PrivateSlot in fs && fs[PrivateSlot].Symlink? && Stat(fs, PrivateSlot) == Exists
    ensures var r := DeleteKeyByDefault(fs, alias, LoadSSHKeys(fs)[alias], "y");
      PrivateSlot !in r && ParsePath(r, PrivateSlot) == []
    ensures var keys := LoadSSHKeys(DeleteKeyByDefault(fs, alias, LoadSSHKeys(fs)[alias], "y"));
      forall n :: n in keys ==> !keys[n].isDefault
  {
    var key := LoadSSHKeys(fs)[alias];
    var r := DeleteKeyByDefault(fs, alias, key, "y");
    assert PrivateSlot !in ClearKey(fs);
    assert PrivateSlot !in r;
    NoSlotNoDefault(r);
  }

  /** A listed key that `deleteKey` finds in use is always the listed default, so
      clearing by the default flag clears whenever `deleteKey` does, and more. */
  lemma InUseIsListedDefault(fs: FileSystem, alias: Name)
    requires alias in LoadSSHKeys(fs) && InUse(fs, LoadSSHKeys(fs)[alias])
    ensures LoadSSHKeys(fs)[alias].isDefault
  {
    var keys := LoadSSHKeys(fs);
    LoadSSHKeysSpec(fs);
    var d :| IsWinner(fs, alias, d) && LoadSingleKey(fs, d) == Some(keys[alias]);
    LoadSingleKeySpec(fs, d);
  }

  // ---------------------------------------------------------------------------
  // The listed default that deletion does not see as in use

  /** When `~/.ssh/id_rsa` links to `alias`'s `id_rsa` and the alias holds another
      private file visited after it (`id_rsa.old`, `notes`), the listing marks `alias`
      as the default, but its key's private file is not where the slot leads, so
      `deleteKey` does not find it in use: a confirmed deletion removes the alias and
      leaves `~/.ssh/id_rsa` dangling into it. */
  lemma ListedDefaultNotInUse(fs: FileSystem, alias: Name, other: Path)
    requires FlatStore(fs) && alias in LoadSSHKeys(fs)
    requires ParsePath(fs, PrivateSlot) == LinkTarget(alias, PrivateKeyName)
    requires LinkTarget(alias, PrivateKeyName) in fs && fs[LinkTarget(alias, PrivateKeyName)].File?
    requires other in PrivateFiles(fs, AliasDir(alias)) && PathLt(LinkTarget(alias, PrivateKeyName), other)
    ensures var key := LoadSSHKeys(fs)[alias];
      key.isDefault && !InUse(fs, key)
    ensures var r := DeleteKey(fs, alias, LoadSSHKeys(fs)[alias], "y");
      && PrivateSlot in r && r[PrivateSlot] == Symlink(LinkTarget(alias, PrivateKeyName))
      && LinkTarget(alias, PrivateKeyName) !in r
  {
    var key := LoadSSHKeys(fs)[alias];
    var target := LinkTarget(alias, PrivateKeyName);
    KeyPastLinkTarget(fs, alias, other, key);
    assert fs[PrivateSlot].Symlink? && fs[PrivateSlot].target == target;
    SlotsOutsideAlias(alias);
    assert IsPrefix(AliasDir(alias), target);
  }

  /** The listed key of such an alias is the default, and its private file is one
      visited after the alias's `id_rsa`. */
  lemma KeyPastLinkTarget(fs: FileSystem, alias: Name, other: Path, key: SSHKey)
    requires FlatStore(fs) && alias in LoadSSHKeys(fs) && key == LoadSSHKeys(fs)[alias]
    requires ParsePath(fs, PrivateSlot) == LinkTarget(alias, PrivateKeyName)
    requires LinkTarget(alias, PrivateKeyName) in fs && fs[LinkTarget(alias, PrivateKeyName)].File?
    requires other in PrivateFiles(fs, AliasDir(alias)) && PathLt(LinkTarget(alias, PrivateKeyName), other)
    ensures key.isDefault && key.privateKey != LinkTarget(alias, PrivateKeyName)
  {
    var target := LinkTarget(alias, PrivateKeyName);
    var d := FlatWinner(fs, alias);
    KeyFileInDir(fs, alias);
    LoadedDefault(fs, d, key);
    LoadedPrivateKey(fs, d, key);
    GreatestNotBelow(PrivateFiles(fs, d), key.privateKey, target, other);
  }

  /** The private file of a loaded key is the one of its kind visited last. */
  lemma LoadedPrivateKey(fs: FileSystem, d: Path, key: SSHKey)
    requires LoadSingleKey(fs, d) == Some(key)
    ensures IsGreatest(key.privateKey, PrivateFiles(fs, d))
  {
    LoadSingleKeySpec(fs, d);
  }

  /** The greatest path of a set is none that another member of it follows. */
  lemma GreatestNotBelow(s: set<Path>, g: Path, t: Path, o: Path)
    requires IsGreatest(g, s) && o in s && PathLt(t, o)
    ensures g != t
  {
    PathLtStrictTotal();
  }

  /** A store holding one alias `a` with `id_rsa`, `id_rsa.pub` and a third, private
      file `notes`, and `~/.ssh/id_rsa` linked to `a`'s `id_rsa`. */
  function NotesExample(): FileSystem {
    map[
      ["home"] := Dir,
      Home := Dir,
      SshPath := Dir,
      StorePath := Dir,
      AliasDir("a") := Dir,
      LinkTarget("a", PrivateKeyName) := File,
      LinkTarget("a", PublicKeyName) := File,
      AliasDir("a") + ["notes"] := File,
      PrivateSlot := Symlink(LinkTarget("a", PrivateKeyName))
    ]
  }

  lemma NotesExampleEntries()
    ensures NotesExample().Keys == {["home"], Home, SshPath, StorePath, AliasDir("a"), LinkTarget("a", PrivateKeyName), LinkTarget("a", PublicKeyName), AliasDir("a") + ["notes"], PrivateSlot}
  {}

  lemma NotesExampleWellFormed()
    ensures WellFormed(NotesExample())
  {
    var fs := NotesExample();
    NotesExampleEntries();
    forall p | p in fs ensures ParentIsDir(fs, p) {
      assert Parent(AliasDir("a")) == StorePath;
      assert Parent(LinkTarget("a", PrivateKeyName)) == AliasDir("a");
      assert Parent(LinkTarget("a", PublicKeyName)) == AliasDir("a");
      assert Parent(AliasDir("a") + ["notes"]) == AliasDir("a");
      assert Parent(PrivateSlot) == SshPath;
      assert Parent(SshPath) == Home && Parent(StorePath) == Home && Parent(Home) == ["home"];
    }
  }

  /** The entries of `NotesExample` are pairwise distinct, so each has its own kind. */
  lemma NotesExampleValues()
    ensures var fs := NotesExample(); var a := AliasDir("a");
      && fs[StorePath] == Dir && fs[a] == Dir
      && fs[LinkTarget("a", PrivateKeyName)] == File && fs[LinkTarget("a", PublicKeyName)] == File
      && fs[a + ["notes"]] == File
      && fs[PrivateSlot] == Symlink(LinkTarget("a", PrivateKeyName))
  {
    var a := AliasDir("a");
    assert a[2] != PrivateSlot[2];
    assert StorePath[2] != SshPath[2];
    assert LinkTarget("a", PrivateKeyName)[4] != LinkTarget("a", PublicKeyName)[4];
    assert (a + ["notes"])[4] != LinkTarget("a", PublicKeyName)[4];
    assert (a + ["notes"])[4] != LinkTarget("a", PrivateKeyName)[4];
  }

  /** A walk of the store of `NotesExample` visits `a` and its three files. */
  lemma NotesExampleStoreWalk()
    ensures WalkSet(NotesExample(), StorePath) == {AliasDir("a"), LinkTarget("a", PrivateKeyName), LinkTarget("a", PublicKeyName), AliasDir("a") + ["notes"]}
  {
    var fs := NotesExample();
    var a := AliasDir("a");
    NotesExampleEntries();
    forall p | p in fs ensures Below(fs, StorePath, p) <==> p in {a, LinkTarget("a", PrivateKeyName), LinkTarget("a", PublicKeyName), a + ["notes"]} {
      assert p == ["home"] || p == Home || p == SshPath || p == StorePath || p == a || p == LinkTarget("a", PrivateKeyName) || p == LinkTarget("a", PublicKeyName) || p == a + ["notes"] || p == PrivateSlot;
      if p == SshPath || p == PrivateSlot {
        assert p[2] != StorePath[2];
      }
      if p in {LinkTarget("a", PrivateKeyName), LinkTarget("a", PublicKeyName), a + ["notes"]} {
        assert p[..4] == a && p[..3] == StorePath;
      }
      if p == a {
        assert p[..3] == StorePath;
      }
    }
  }

  /** A walk of `a` visits its three files. */
  lemma NotesExampleAliasWalk()
    ensures var a := AliasDir("a");
      WalkSet(NotesExample(), a) == {LinkTarget("a", PrivateKeyName), LinkTarget("a", PublicKeyName), a + ["notes"]}
  {
    var fs := NotesExample();
    var a := AliasDir("a");
    NotesExampleEntries();
    NotesExampleValues();
    forall p | p in fs ensures Below(fs, a, p) <==> (p == LinkTarget("a", PrivateKeyName) || p == LinkTarget("a", PublicKeyName) || p == a + ["notes"]) {
      if p == LinkTarget("a", PrivateKeyName) || p == LinkTarget("a", PublicKeyName) || p == a + ["notes"] {
        assert p[..4] == a && |p| == 5;
      } else {
        assert p == ["home"] || p == Home || p == SshPath || p == StorePath || p == a || p == PrivateSlot;
        assert |p| <= 4;
      }
    }
  }

  /** `id_rsa.pub` is taken for a public key. */
  lemma PublicKeyNameIsPublic()
    ensures IsPublicName(PublicKeyName)
  {
    assert PublicKeyName == "id_rsa" + ".pub";
    ContainsSuffix("id_rsa", ".pub");
  }

  /** `id_rsa` and `notes` contain no ".pub": they are taken for private keys. */
  lemma NotesNamesArePrivate()
    ensures !IsPublicName(PrivateKeyName) && !IsPublicName("notes")
  {
    if Contains("id_rsa", ".pub") {
      ContainsFirst("id_rsa", ".pub");
      assert false;
    }
    if Contains("notes", ".pub") {
      ContainsFirst("notes", ".pub");
      assert false;
    }
  }

  /** `a`'s private key files are `id_rsa` and `notes`; its public one is `id_rsa.pub`. */
  lemma NotesExampleKinds(fs: FileSystem)
    requires var a := AliasDir("a");
      && WalkSet(fs, a) == {LinkTarget("a", PrivateKeyName), LinkTarget("a", PublicKeyName), a + ["notes"]}
      && fs[LinkTarget("a", PrivateKeyName)] == File && fs[LinkTarget("a", PublicKeyName)] == File
      && fs[a + ["notes"]] == File
    ensures var a := AliasDir("a");
      && PrivateFiles(fs, a) == {LinkTarget("a", PrivateKeyName), a + ["notes"]}
      && PublicFiles(fs, a) == {LinkTarget("a", PublicKeyName)}
  {
    var a := AliasDir("a");
    var i, u, n := LinkTarget("a", PrivateKeyName), LinkTarget("a", PublicKeyName), a + ["notes"];
    PublicKeyNameIsPublic();
    NotesNamesArePrivate();
    assert Base(i) == PrivateKeyName && Base(u) == PublicKeyName && Base(n) == "notes";
    KindsOfThreeFiles(fs, a, i, u, n);
  }

  lemma KindsOfThreeFiles(fs: FileSystem, a: Path, i: Path, u: Path, n: Path)
    requires WalkSet(fs, a) == {i, u, n}
    requires fs[i] == File && fs[u] == File && fs[n] == File
    requires IsPublicName(Base(u)) && !IsPublicName(Base(i)) && !IsPublicName(Base(n))
    ensures PrivateFiles(fs, a) == {i, n}
    ensures PublicFiles(fs, a) == {u}
  {
  }

  /** A store whose walk meets one directory, an alias directory, is flat. */
  lemma FlatWithOneDir(fs: FileSystem, a: Path, i: Path, u: Path, n: Path)
    requires |a| == |StorePath| + 1
    requires WalkSet(fs, StorePath) == {a, i, u, n}
    requires fs[i] == File && fs[u] == File && fs[n] == File
    ensures FlatStore(fs)
  {
    forall d | d in WalkSet(fs, StorePath) && fs[d].Dir? ensures |d| == |StorePath| + 1 {
      assert d == a || d == i || d == u || d == n;
    }
  }

  /** A directory of the store holding both kinds of key file is listed under its name. */
  lemma KeyDirListed(fs: FileSystem, a: Path)
    requires a in WalkSet(fs, StorePath) && fs[a] == Dir
    requires PrivateFiles(fs, a) != {} && PublicFiles(fs, a) != {}
    ensures Base(a) in LoadSSHKeys(fs)
  {
    LoadSingleKeySpec(fs, a);
    assert a in KeyDirs(fs);
    LoadSSHKeysSpec(fs);
  }

  /** In `NotesExample` the listing marks `a` as the default while `deleteKey` does not
      find its key in use: a confirmed deletion of `a` removes `a/id_rsa` and keeps
      `~/.ssh/id_rsa` linked to it. */
  lemma ListedDefaultSurvivesDeletion()
    ensures WellFormed(NotesExample())
    ensures var fs := NotesExample(); var keys := LoadSSHKeys(fs);
      && "a" in keys && keys["a"].isDefault && !InUse(fs, keys["a"])
      && var r := DeleteKey(fs, "a", keys["a"], "y");
         PrivateSlot in r && r[PrivateSlot] == Symlink(LinkTarget("a", PrivateKeyName))
         && LinkTarget("a", PrivateKeyName) !in r
  {
    NotesExampleWellFormed();
    NotesExampleValues();
    NotesExampleStoreWalk();
    NotesExampleAliasWalk();
    NotesCaseNotInUse(NotesExample());
  }

  /** Any filesystem whose store and alias `a` look like those of `NotesExample`. */
  lemma NotesCaseNotInUse(fs: FileSystem)
    requires var a := AliasDir("a");
      && a in fs && fs[a] == Dir
      && LinkTarget("a", PrivateKeyName) in fs && fs[LinkTarget("a", PrivateKeyName)] == File
      && LinkTarget("a", PublicKeyName) in fs && fs[LinkTarget("a", PublicKeyName)] == File
      && a + ["notes"] in fs && fs[a + ["notes"]] == File
      && PrivateSlot in fs && fs[PrivateSlot] == Symlink(LinkTarget("a", PrivateKeyName))
    requires var a := AliasDir("a");
      WalkSet(fs, StorePath) == {a, LinkTarget("a", PrivateKeyName), LinkTarget("a", PublicKeyName), a + ["notes"]}
    requires var a := AliasDir("a");
      WalkSet(fs, a) == {LinkTarget("a", PrivateKeyName), LinkTarget("a", PublicKeyName), a + ["notes"]}
    ensures var keys := LoadSSHKeys(fs);
      && "a" in keys && keys["a"].isDefault && !InUse(fs, keys["a"])
      && var r := DeleteKey(fs, "a", keys["a"], "y");
         PrivateSlot in r && r[PrivateSlot] == Symlink(LinkTarget("a", PrivateKeyName))
         && LinkTarget("a", PrivateKeyName) !in r
  {
    var a := AliasDir("a");
    NotesCaseListed(fs);
    ListedDefaultNotInUse(fs, "a", a + ["notes"]);
  }

  lemma NotesCaseListed(fs: FileSystem)
    requires var a := AliasDir("a");
      && a in fs && fs[a] == Dir
      && LinkTarget("a", PrivateKeyName) in fs && fs[LinkTarget("a", PrivateKeyName)] == File
      && LinkTarget("a", PublicKeyName) in fs && fs[LinkTarget("a", PublicKeyName)] == File
      && a + ["notes"] in fs && fs[a + ["notes"]] == File
    requires var a := AliasDir("a");
      WalkSet(fs, StorePath) == {a, LinkTarget("a", PrivateKeyName), LinkTarget("a", PublicKeyName), a + ["notes"]}
    requires var a := AliasDir("a");
      WalkSet(fs, a) == {LinkTarget("a", PrivateKeyName), LinkTarget("a", PublicKeyName), a + ["notes"]}
    ensures FlatStore(fs) && "a" in LoadSSHKeys(fs)
    ensures AliasDir("a") + ["notes"] in PrivateFiles(fs, AliasDir("a"))
    ensures PathLt(LinkTarget("a", PrivateKeyName), AliasDir("a") + ["notes"])
  {
    var a := AliasDir("a");
    NotesExampleKinds(fs);
    FlatWithOneDir(fs, a, LinkTarget("a", PrivateKeyName), LinkTarget("a", PublicKeyName), a + ["notes"]);
    KeyDirListed(fs, a);
    assert Base(a) == "a";
    NotesAfterKey();
  }

  /** A walk visits `a/id_rsa` before `a/notes`. */
  lemma NotesAfterKey()
    ensures PathLt(LinkTarget("a", PrivateKeyName), AliasDir("a") + ["notes"])
  {
    assert LinkTarget("a", PrivateKeyName) == AliasDir("a") + [PrivateKeyName];
    assert StrLt(PrivateKeyName, "notes");
    CommonPrefixThenLt(AliasDir("a"), PrivateKeyName, "notes", StrLt);
  }
}

=== FILE: walk.dfy ===
/** `filepath.Walk` over the abstract filesystem. Walk reads each directory's names in
    sorted order and visits a directory before its contents, so it visits paths in the
    lexicographic order of their component lists; the walk is therefore the sorted list
    of the root and every entry reachable below it through directories. `Walk` uses
    `Lstat`, so a symbolic link is visited but never descended into. */
module FileWalk {
  import opened Lexicographic
  import opened Files

  /** Walk order on paths: component by component, each compared as a string. */
  predicate PathLt(p: Path, q: Path) {
    SeqLt(p, q, StrLt)
  }

  lemma PathLtStrictTotal()
    ensures StrictTotalOrder(PathLt)
  {
    StrLtStrictTotal();
    SeqLtStrictTotal(StrLt);
  }

  ghost predicate Increasing(ps: seq<Path>) {
    forall i, j :: 0 <= i < j < |ps| ==> PathLt(ps[i], ps[j])
  }

  predicate IsLeast(m: Path, s: set<Path>) {
    m in s && forall q :: q in s && q != m ==> PathLt(m, q)
  }

  /** `m` is the element of `s` that a walk over `s` visits last. */
  ghost predicate IsGreatest(m: Path, s: set<Path>) {
    m in s && forall q :: q in s && q != m ==> PathLt(q, m)
  }

  lemma {:induction false} LeastExists(s: set<Path>)
    requires s != {}
    ensures exists m :: IsLeast(m, s)
    decreases |s|
  {
    var x :| x in s;
    if s == {x} {
      assert IsLeast(x, s);
    } else {
      var rest := s - {x};
      LeastExists(rest);
      var m :| IsLeast(m, rest);
      PathLtStrictTotal();
      if PathLt(x, m) {
        forall q | q in s && q != x ensures PathLt(x, q) {
          if q != m {
            assert PathLt(m, q);
          }
        }
        assert IsLeast(x, s);
      } else {
        assert IsLeast(m, s);
      }
    }
  }

  /** The elements of a finite set of paths in walk order. */
  function SortPaths(s: set<Path>): (r: seq<Path>)
    ensures Increasing(r)
    ensures forall p :: p in r <==> p in s
    ensures |r| == |s|
    decreases |s|
  {
    if s == {} then []
    else
      LeastExists(s);
      PathLtStrictTotal();
      var m :| IsLeast(m, s);
      var rest := SortPaths(s - {m});
      assert forall j :: 0 <= j < |rest| ==> PathLt(m, rest[j]);
      [m] + rest
  }

  /** `p` is visited by a walk from `root`: it lies strictly below `root`, and `root`
      and every directory on the way down to `p` exist as directories. */
  predicate Below(fs: FileSystem, root: Path, p: Path) {
    |root| < |p| && p[..|root|] == root
    && forall k :: |root| <= k < |p| ==> p[..k] in fs && fs[p[..k]].Dir?
  }

  /** The entries a walk from `root` visits besides `root` itself. */
  function WalkSet(fs: FileSystem, root: Path): (s: set<Path>)
    ensures forall p :: p in s ==> p in fs && |p| > 0
  {
    set p | p in fs.Keys && Below(fs, root, p)
  }

  /** A walk from `root` visits `root` before everything below it. */
  lemma RootFirst(fs: FileSystem, root: Path)
    ensures forall p :: p in WalkSet(fs, root) ==> PathLt(root, p)
  {
    forall p | p in WalkSet(fs, root) ensures PathLt(root, p) {
      PrefixPrecedes(root, p, StrLt);
    }
  }

  /** The sequence of paths `filepath.Walk(root, ...)` hands to its callback, or `None`
      for the error it reports when `root` itself cannot be `Lstat`ed. */
  function Walk(fs: FileSystem, root: Path): (r: Option<seq<Path>>)
    ensures r.None? <==> root !in fs
    ensures r.Some? ==> |r.value| > 0 && r.value[0] == root
  {
    if root !in fs then None
    else Some([root] + SortPaths(WalkSet(fs, root)))
  }

  /** A walk fails only on a missing root; otherwise it visits the root first and then
      every entry below it, each exactly once and in increasing order. */
  lemma WalkSpec(fs: FileSystem, root: Path)
    ensures Walk(fs, root).None? <==> root !in fs
    ensures Walk(fs, root).Some? ==> var ps := Walk(fs, root).value;
      && |ps| > 0 && ps[0] == root && Increasing(ps)
      && (forall p :: p in ps <==> p == root || p in WalkSet(fs, root))
      && (forall i :: 0 <= i < |ps| ==> ps[i] in fs)
  {
    if root in fs {
      RootFirst(fs, root);
    }
  }

  /** Only the entries at or below `root` matter to a walk from `root`. */
  lemma WalkSetFrame(fs: FileSystem, fs': FileSystem, root: Path)
    requires forall q :: IsPrefix(root, q) ==> (q in fs <==> q in fs') && (q in fs ==> fs[q] == fs'[q])
    ensures WalkSet(fs, root) == WalkSet(fs', root)
  {
    forall p | Below(fs, root, p) ensures Below(fs', root, p) {
      forall k | |root| <= k < |p| ensures p[..k] in fs' && fs'[p[..k]].Dir? {
        assert IsPrefix(root, p[..k]);
      }
    }
    forall p | Below(fs', root, p) ensures Below(fs, root, p) {
      forall k | |root| <= k < |p| ensures p[..k] in fs && fs[p[..k]].Dir? {
        assert IsPrefix(root, p[..k]);
      }
    }
  }
}
